=== FILE: README.md ===
# Achievements service — a Dafny model

The service stores users, achievements and the awards that link them. It
serves them over HTTP and computes five statistics over the award table:
- the user with the most awards;
- the user with the most points;
- the pair of users whose point totals are furthest apart;
- the pair whose totals are closest;
- the users who received an award on each of the last seven days.

This project models that core as pure Dafny over an immutable `Store`
holding three tables: `users`, `achievements` and `user_achievements`.
Each operation takes a store and returns a result and, where it writes, a
new store. The modules follow the program's layers:

- `Schema` (schema.dfy): the table rows and the column widths.
  - The 32-bit `integer` range of Postgres.
  - The invariants the database enforces (`Valid`): distinct primary keys,
    unique usernames, column widths, NUL-free text, foreign keys.
  - The invariant only the code keeps (`OneRowPerPair`).
- `ApiModels` (api_models.dfy): the request and response shapes.
  - The default language `"ru"`.
  - The `points > 0` validation.
- `Crud` (crud.dfy): lookups by id and username, inserts with fresh ids,
  the paged achievement list, the idempotent award, and the localized
  detail join.
- `Stats` (stats.dfy): the five statistics, with per-user totals written
  out as the outer-join sums the queries compute.
  - The minimum-difference scan is a method with a loop, as in the source.
- `Endpoints` (endpoints.dfy): each route's guards, in the order the routes
  run them.
  - Failures map to HTTP statuses: 400, 404, 422, and 500 for an exception
    escaping the route.
  - An empty statistic maps to an informational reply.
  - A run of write requests from an empty database keeps every invariant.
- `Scenarios` (scenarios.dfy): the statistics scenarios of the service's
  test-suite, worked out on the model. Each user gets one award carrying the
  test's total, where the tests award one 10-point achievement several times.
- `Wrappers` and `Seqs` (wrappers.dfy, seqs.dfy): `Option`/`Result`, and the
  first-match, first-extremum and filter searches the queries rely on.

Outside inputs are parameters:
- The database clock is a parameter `now`.
- The current date of the streak statistic is a parameter `today`.
- Award timestamps are day numbers.

Database errors become `Crud.CrudError` values rather than exceptions:
- a string the driver cannot send because it holds the NUL character;
- a string too long for its column: VARCHAR(100) username, VARCHAR(2)
  language, VARCHAR(200) names. As Postgres does, excess characters that
  are all spaces are cut off instead, and the shortened value is stored;
- points outside the 32-bit range;
- the unique username;
- a missing foreign key;
- an OFFSET or LIMIT outside the `bigint` range, or a negative one.

## Behaviour worth knowing

- **Unknown languages.** The code reads `name_<language>` unconditionally
  (db/crud.py:67). Only `name_ru` and `name_en` exist, so any other stored
  language raises once the join has a row, and the route answers 500.
  `Crud.GetUserAchievementsWithDetails` fails with
  `NoSuchAttribute("name_<language>")` exactly then.
- **Trailing spaces.** A language of "ru " is stored as "ru", and a
  username longer than 100 characters whose excess is spaces is stored cut
  to 100. The route's own taken-name check (api/endpoints.py:14) compares
  the uncut name, so a cut name that collides with a stored one passes that
  check and then fails the unique constraint: a 500, not a 400.
- **Max difference with equal totals.** The maximum-difference statistic
  takes the first minimum and the first maximum independently. When every
  eligible total is equal, both sides name the same user and the
  difference is 0. `Stats.MaxDifferenceEqualTotals` states this.
- **Unreachable fallback.** The minimum-difference scan ends with a
  fallback `return None` (db/stats.py:130). It cannot be reached once two
  users are eligible: the first gap is always below the infinite starting
  bound. `Stats.UsersWithMinDifference` returns `None` exactly when fewer
  than two users are eligible.

## Model

| member | source | states |
|---|---|---|
| Schema.NextId | db/db_models.py:9 | A new primary key is at least 1 and larger than every id already in the table, so it never collides with a stored row. |
| Schema.Varchar | db/db_models.py:10-22 | Storing into a VARCHAR(n) column: accepted exactly when the value fits or everything past n characters is spaces. The stored value is a prefix of the input, no longer than n, equal to it when it fits and n long when it does not, and it keeps the input free of NUL. |
| Schema.VarcharStable | db/db_models.py:10-22 | Storing a stored value again gives it back unchanged. |
| Schema.DuplicatePairAllowedByStorage | db/db_models.py:31-37 | The award table has no unique constraint on (user_id, achievement_id): a store satisfying every database constraint can still hold two rows for one pair. |
| ApiModels.ParseUserCreate | api/api_models.py:5-7 | The username is kept; the language is the one given, or "ru" when the field is omitted. |
| ApiModels.ValidateAchievement | api/api_models.py:19-26 | A payload is refused exactly when points is not greater than 0; otherwise every field, overrides included, passes through unchanged. |
| Crud.GetUser | db/crud.py:5-6 | Returns a user exactly when some stored user has that id, and then the first such user in stored order. |
| Crud.GetUserByUsername | db/crud.py:8-9 | Returns a user exactly when some stored user has that username, and then the first such user. |
| Crud.GetAchievement | db/crud.py:22-23 | Returns an achievement exactly when one has that id, and then the first such one. |
| Crud.CreateUser | db/crud.py:11-16 | Fails exactly when a field holds NUL, the username or language is too long for its column once trailing spaces are cut, or the stored username is taken; a NUL is reported as such, and a sendable, fitting but taken name as a unique violation. On success the user holds the values as their columns store them, a fresh id and the current time, is appended, and nothing else changes. |
| Crud.CreateUserPreservesValid | db/crud.py:11-16 | After a successful insert, primary keys are distinct, usernames are unique, widths fit and every award still references a stored user and achievement. |
| Crud.GetAchievements | db/crud.py:19-20 | Refused exactly when the offset or limit is outside the 64-bit `bigint` range (reported as such) or negative (the offset reported first). Otherwise it returns the consecutive achievements starting at position skip, at most limit of them, and fewer only when the table ends. |
| Crud.CreateAchievement | db/crud.py:25-30 | Fails exactly when a text field holds NUL, the name or a name override is too long for VARCHAR(200) once trailing spaces are cut, or points exceeds the 32-bit integer range. On success the names are stored as their columns store them, points and descriptions as given, with a fresh id and the current time; the row is appended and nothing else changes. |
| Crud.CreateAchievementPreservesValid | db/crud.py:25-30 | A successful insert keeps all database invariants and, when every stored achievement had positive points, keeps that too. |
| Crud.AwardAchievement | db/crud.py:33-47 | If a row for the pair exists, the first such row is returned and nothing is written. Otherwise it fails (foreign key) exactly when the user or the achievement is missing. A success appends one row for the pair with a fresh id and the current time. |
| Crud.AwardPreservesInvariants | db/crud.py:33-47 | A successful award keeps all database invariants, and keeps at most one row per (user, achievement) pair. |
| Crud.AwardIdempotent | db/crud.py:35-41 | On a store with one row per pair, as every store the API reaches is, awarding the same pair a second time at any later time returns the same row (same id and timestamp) and leaves the store unchanged. |
| Crud.GetUserAchievements | db/crud.py:49-52 | Exactly the user's award rows, each as many times as it is stored. |
| Crud.LocaleOf | db/crud.py:67-68 | The `name_<language>` / `description_<language>` attributes exist exactly for "ru" and "en". |
| Crud.OrElse | db/crud.py:67-68 | Python's `or`: the override is used when present and non-empty, otherwise the canonical text. |
| Crud.Localize | db/crud.py:67-74 | The name is the locale's override when that is present and non-empty, otherwise the canonical name; the description falls back on its own the same way; points and award date are the achievement's and the row's. |
| Crud.JoinRows | db/crud.py:55-63 | Every entry of the inner join is one of the user's award rows paired with the stored achievement it references. |
| Crud.JoinableRows | db/crud.py:55-63 | The rows of the user whose achievement is stored: a row is among them exactly when it is one of the given rows, belongs to the user and references a stored achievement. |
| Crud.JoinRowsInOrder | db/crud.py:55-63 | The join yields exactly the user's rows whose achievement exists, one entry per row, in stored order. |
| Crud.GetUserAchievementsWithDetails | db/crud.py:54-76 | Fails exactly when the join is non-empty and the language has no override attributes. Otherwise there is one detail per joined row, in join order, with the localized name and description and the achievement's points and award date. |
| Stats.AwardCount | db/stats.py:9-20 | A user's award count never exceeds the table size and is positive exactly when the user has an award row. |
| Stats.RowPoints | db/stats.py:36-42 | An award row contributes the points of a stored achievement with its id, or 0 (the NULL the sum skips) when there is none; with positive points it never contributes a negative amount. |
| Stats.PointsSum | db/stats.py:36-42 | With positive points, a user's sum over any award rows is non-negative. |
| Stats.Total | db/stats.py:36-42 | With positive points, a user's coalesced total is non-negative. |
| Stats.UserWithMaxAchievements | db/stats.py:7-29 | No answer exactly when no user has an award row. Otherwise it names a stored user whose count is positive and at least every other user's count. |
| Stats.MaxAchievementsNoneIffNoAwards | db/stats.py:13-23 | When every award references a stored user, there is no leader exactly when the award table is empty. |
| Stats.NoAwardsZeroTotal | db/stats.py:36-42 | A user without award rows totals 0 (the coalesced empty sum). |
| Stats.PositiveSumIffAwarded | db/stats.py:36-42 | With positive points and every referenced achievement stored, a user's sum is non-negative and positive exactly when the user has a row. |
| Stats.TotalPositiveIffAwarded | db/stats.py:60-74 | In a valid store with positive points, a user passes the `total > 0` filter exactly when they have been awarded something. |
| Stats.AwardAddsPointsToRecipientOnly | db/stats.py:33-47 | A new award raises the recipient's total by the achievement's points and leaves every other user's total unchanged. |
| Stats.UserWithMaxPoints | db/stats.py:31-56 | No answer exactly when there are no users, or the largest total is 0. Otherwise it names a stored user whose total is non-zero and at least every user's total. |
| Stats.MaxPointsNoneIffNoAwards | db/stats.py:49-50 | In a valid store with positive points, there is no leader by points exactly when nobody has been awarded anything. |
| Stats.EligibleFrom | db/stats.py:60-74 | The grouped rows that pass the filter are exactly the users with a positive total, each carrying that total, and there are no more rows than users. |
| Stats.EligibleIdsDistinct | db/stats.py:70-74 | Grouping by user id: with distinct user ids the eligible rows have distinct user ids. |
| Stats.UsersWithMaxDifference | db/stats.py:58-88 | No answer exactly when fewer than two users are eligible. Otherwise both named users are eligible, every eligible total lies between theirs, and the difference is the second total minus the first. |
| Stats.MaxDifferenceBoundsEveryPair | db/stats.py:79-87 | The maximum difference is non-negative and at least the distance between any two eligible users' totals. |
| Stats.MaxDifferenceEqualTotals | db/stats.py:79-80 | When all eligible totals are equal, both sides are the first eligible user and the difference is 0. |
| Stats.InsertByPoints | db/stats.py:111 | Inserting into a list sorted by points gives a sorted list with the same elements plus the new one. |
| Stats.SortByPoints | db/stats.py:111 | The result is sorted by points and is a permutation of the input. |
| Stats.MinAdjacentGap | db/stats.py:112-119 | No pair for fewer than two values. Otherwise it returns the position of an adjacent gap that is no larger than any adjacent gap and strictly smaller than every earlier one. |
| Stats.MinGapBoundsEveryPair | db/stats.py:111-119 | In the sorted rows, the smallest adjacent gap is at most the distance between any two distinct eligible rows. |
| Stats.SortedPositionsDistinctUsers | db/stats.py:111-119 | Two positions of the sorted eligible rows belong to two different users, so the closest pair never names one user twice. |
| Stats.ClosestAdjacentPair | db/stats.py:111-128 | The sort-and-scan over any grouped rows: no pair for fewer than two rows. Otherwise two of the rows, the first with no more points than the second, forming the first smallest adjacent gap of the sorted rows. The gap is at most the distance of any two distinct rows, and the pair names two users when user ids are distinct. |
| Stats.UsersWithMinDifference | db/stats.py:90-130 | No answer exactly when fewer than two users are eligible. Otherwise it returns the first adjacent pair with the smallest gap after sorting: two eligible users, distinct when user ids are. The difference is their non-negative gap and at most the distance of any two eligible users. |
| Stats.Days | db/stats.py:150 | The expected dates are exactly seven consecutive days from the window start. |
| Stats.AwardDates | db/stats.py:141-149 | Every distinct award date collected for the window lies between its first and last day. |
| Stats.WindowCount | db/stats.py:153-157 | The count of the user's award rows in the window is at most the number of rows, and positive exactly when some row of the user is dated within the window. |
| Stats.AwardDatesExact | db/stats.py:141-149 | A day of the window is among the user's distinct award dates exactly when some award row of the user carries that day. |
| Stats.CoversWindowIffStreak | db/stats.py:149-152 | The subset test passes exactly when the user has an award on every one of the seven days ending today. |
| Stats.DatesAtMostRows | db/stats.py:141-157 | The number of distinct award dates in the window never exceeds the number of award rows in it. |
| Stats.CoveredWindowCount | db/stats.py:152-157 | A user who passes the subset test has at least seven award rows in the window. |
| Stats.SevenDayStreakUsers | db/stats.py:132-167 | Lists exactly the users with an award on each of the last seven days, no more entries than users and, with distinct user ids, no user twice. Each entry has the window `today - 6` to `today` and a count equal to the user's award rows in it, which is at least 7. |
| Stats.NoAwardsNoStreak | db/stats.py:137-167 | With an empty award table nobody has a streak. |
| Scenarios.MaxPointsExample | tests/test_api.py:257-277 | Two users with totals 50 and 100: the leader by points is the second user, with 100. |
| Scenarios.MaxDifferenceExample | tests/test_api.py:279-300 | Three users with totals 10, 30 and 50: the maximum difference pairs the first and the third user, 40 apart. |
| Scenarios.MinDifferenceExample | tests/test_api.py:302-323 | Three users with totals 20, 30 and 50: the minimum difference pairs the first two users, 10 apart. |
| Scenarios.TrailingSpaceCut | db/db_models.py:11 | A new user with language "ru " is accepted and stored with language "ru". |
| Scenarios.NulRefused | api/endpoints.py:14 | A username holding NUL makes the taken-name lookup raise: a 500, with nothing stored. |
| Scenarios.HugeOffsetRefused | db/crud.py:20 | An offset of 2^63, one past the `bigint` range, makes the route answer 500 on any store. |
| Scenarios.ZeroPointsPageRefused | api/api_models.py:23-31 | A stored achievement worth 0 points fails the response model when listed, so the listing answers 500 instead of the page. |
| Endpoints.CreateUserRoute | api/endpoints.py:12-17 | Refused with 400 "Username already registered" exactly when the username, as sent, is taken and can be looked up (no NUL). Accepted exactly when the name is not taken and the repository insert succeeds, with the insert's store and user; a name that fits its column is kept as given and an omitted language is "ru". Any other failure is a 500. |
| Endpoints.GetUserRoute | api/endpoints.py:19-24 | 404 "User not found" exactly when no user has the id; otherwise that user. |
| Endpoints.GetAchievementsRoute | api/endpoints.py:27-29 | With `skip` defaulting to 0 and `limit` to 100, it answers the repository's page once the page passes the response model's `points > 0` (api/api_models.py:23,31). Without parameters that is the first 100 achievements (or all of them) when they all have positive points. It errors, with a 500, exactly when the offset or limit is negative or outside the `bigint` range, or the page holds an achievement with non-positive points; on a store whose points are all positive, exactly in the first two cases. |
| Endpoints.CreateAchievementRoute | api/endpoints.py:31-33 | 422 exactly when points is not positive. Accepted exactly when points is positive and the repository insert succeeds, with that insert's store and row: positive points, the description as given, and a name that fits its column kept as given. Any other failure is a 500. |
| Endpoints.AwardRoute | api/endpoints.py:36-55 | A missing user gives 404 "User not found", checked before the achievement. An existing user with a missing achievement gives 404 "Achievement not found". With both present, it returns the award's row and store with the user's and the achievement's names. |
| Endpoints.UserAchievementsRoute | api/endpoints.py:58-70 | 404 exactly when the user is missing. Otherwise the repository's localized list for the user's own language, with the user's id, name and language. A 500 happens exactly when the user exists, the join is non-empty and the language is neither ru nor en. |
| Endpoints.MaxAchievementsRoute | api/endpoints.py:73-78 | The message "No achievements found" exactly when the statistic has no answer, otherwise the statistic itself. |
| Endpoints.MaxPointsRoute | api/endpoints.py:80-85 | The message "No achievements found" exactly when the statistic has no answer, otherwise the statistic itself. |
| Endpoints.MaxDifferenceRoute | api/endpoints.py:87-92 | The message "Not enough users with achievements" exactly when fewer than two users are eligible, otherwise the statistic itself. |
| Endpoints.MinDifferenceRoute | api/endpoints.py:94-99 | The message "Could not calculate minimum difference" exactly when fewer than two users are eligible. Otherwise the first adjacent pair of the sorted eligible rows whose gap is the smallest: two eligible users, a non-negative difference, and at most the distance of any two eligible users. |
| Endpoints.StreakRoute | api/endpoints.py:101-103 | The list, possibly empty, holds exactly the users with a seven-day streak, each once when user ids are distinct and with at least seven awards in the window; it is never longer than the user table. |
| Endpoints.Apply | api/endpoints.py:12-55 | One write request, accepted or refused, only appends to the tables, and adds at most one row in all. |
| Endpoints.ApplyKeepsServed | api/endpoints.py:12-55 | Any write request, accepted or refused, keeps the database invariants, positive points and one row per award pair. |
| Endpoints.RunKeepsServed | api/endpoints.py:12-55 | Any sequence of write requests keeps those invariants. |
| Endpoints.ServedFromEmpty | api/endpoints.py:12-55 | Every store reachable from an empty database through the API satisfies them. |

## Left out

- Sessions, commits, `refresh`, the application wiring (main.py), the database URL (core/config.py) and db/database.py are not part of this model; each operation is one atomic step on the store.
- Concurrency: two requests racing between the username or pair check and the insert are not modelled. One request is applied at a time.
- Clocks: `server_default=now()`, `datetime.now()` and the time-zone conversion in `func.date` become the parameters `now` and `today`. Award times are already day numbers.
- Schema.NextId: a `SERIAL` column hands out the next sequence value, which leaves gaps after failed inserts. The model uses "largest stored id + 1", which keeps the property that matters: the id is fresh. It does not model the 32-bit limit: once the sequence passes 2147483647 every insert fails, while `NextId` never fails.
- Nullable foreign-key columns: the API never writes a NULL `user_id` or `achievement_id`, so award rows always carry both.
- Response serialisation: `response_model` filtering and datetime formatting are not modelled; of the response models' validation only `points > 0` on the achievements listing is, because `points > 0` is the only constraint the response models add to field types, and the model's rows are always well-typed (a NULL `language`, which a store written outside the API could hold, is not representable). Statistic dictionaries are modelled as the response datatypes.
- Request validation other than `points > 0` (missing fields, wrong JSON types) is not modelled. The model receives well-typed payloads.
- Stats.UserWithMaxAchievements: when several users share the largest count, the contract promises a user with the largest count, not which one; SQL `ORDER BY ... LIMIT 1` leaves ties unordered (the model takes the first in stored order).
- Stats.UserWithMaxPoints: same as above for equal largest totals.
- Stats.UsersWithMaxDifference: the grouped query's row order is unspecified in SQL. The model uses stored user order, and the contract states only the attained extremes plus the equal-totals lemma.
- Stats.SortByPoints: the contract states sortedness and permutation but not stability, which decides which pair wins among equal totals.
- Crud.GetAchievements: without `ORDER BY` Postgres does not promise an order; the model pages over stored order.
- Endpoints.CreateAchievementRoute: the 422 body is a fixed message, not the framework's structured validation error.
- Endpoints.GetAchievementsRoute: a negative offset or limit gives a 500 with a fixed body; the database's error text is not modelled.
- Crud.GetUserByUsername: the lookup is modelled as pure. The driver refuses a username holding NUL, and only the route models that failure, as a 500.
- Crud.GetUserAchievements: the query has no `ORDER BY`, so Postgres may return the rows in any order; the model keeps stored order, and only the multiset of rows is what the source promises.
- Crud.JoinRowsInOrder: the detail join has no `ORDER BY`; the stored order it states is the model's choice, not a promise of the source.
- Crud.GetUserAchievementsWithDetails: the entries follow the join, whose order Postgres does not fix; only their contents and number are what the source promises.
- Stats.SevenDayStreakUsers: the user list comes from a query without `ORDER BY`; the model lists users in stored order, which the source does not promise. The entries themselves and their number are as the source computes them.
- Crud.AwardAchievement: with several rows for the pair, which only a store built outside the API can hold, `.first()` without `ORDER BY` may return any of them; the model takes the first in stored order. `Crud.AwardIdempotent` is therefore stated for stores with one row per pair.

=== FILE: api_models.dfy ===
/** Request payloads, their validation, and the response shapes of the API. */
module ApiModels {
  import opened Wrappers

  /** Language a user gets when the request omits it. */
  const DefaultLanguage: string := "ru"

  /** A create-user request body; an omitted `language` is `None`. */
  datatype UserPayload = UserPayload(username: string, language: Option<string>)

  /** A validated create-user request. */
  datatype UserCreate = UserCreate(username: string, language: string)

  type PositiveInt = x: int | x > 0 witness 1

  /** A create-achievement request body; omitted overrides are `None`. */
  datatype AchievementPayload = AchievementPayload(
    name: string,
    nameRu: Option<string>,
    nameEn: Option<string>,
    points: int,
    description: string,
    descriptionRu: Option<string>,
    descriptionEn: Option<string>)

  /** A validated create-achievement request: its points are positive. */
  datatype AchievementCreate = AchievementCreate(
    name: string,
    nameRu: Option<string>,
    nameEn: Option<string>,
    points: PositiveInt,
    description: string,
    descriptionRu: Option<string>,
    descriptionEn: Option<string>)

  datatype ValidationError = PointsNotPositive(given: int)

  /** An award request: the two ids to link. */
  datatype UserAchievementBase = UserAchievementBase(userId: int, achievementId: int)

  /** One localized entry of a user's achievement list. */
  datatype UserAchievementDetail = UserAchievementDetail(name: string, description: string, points: int, awardedAt: int)

  /** A user and an aggregate over their award rows (a count or a sum). */
  datatype StatsResponse = StatsResponse(userId: int, username: string, total: int)

  /** Two users and the gap between their point totals. */
  datatype UserDifference = UserDifference(user1Id: int, user1Name: string, user2Id: int, user2Name: string, difference: int)

  /** A user who received an award on each of the seven days of the window. */
  datatype StreakEntry = StreakEntry(userId: int, username: string, streakStart: int, streakEnd: int, achievementsCount: nat)

  /** The award endpoint's reply, enriched with the two names. */
  datatype AwardResponse = AwardResponse(
    id: int, userId: int, achievementId: int, awardedAt: int,
    username: Option<string>, achievementName: Option<string>)

  /** Fills in the default language of an omitted field. */
  function ParseUserCreate(p: UserPayload): (u: UserCreate)
    ensures u.username == p.username
    ensures p.language.None? ==> u.language == DefaultLanguage
    ensures p.language.Some? ==> u.language == p.language.value
  {
    UserCreate(p.username, p.language.GetOr(DefaultLanguage))
  }

  /** Rejects a non-positive `points` before anything is stored; otherwise
      every field passes through unchanged. */
  function ValidateAchievement(p: AchievementPayload): (r: Result<AchievementCreate, ValidationError>)
    ensures r.Failure? <==> p.points <= 0
    ensures r.Failure? ==> r.error == PointsNotPositive(p.points)
    ensures r.Success? ==>
      && r.value.name == p.name && r.value.nameRu == p.nameRu && r.value.nameEn == p.nameEn
      && r.value.points == p.points
      && r.value.description == p.description
      && r.value.descriptionRu == p.descriptionRu && r.value.descriptionEn == p.descriptionEn
  {
    if p.points <= 0 then Failure(PointsNotPositive(p.points))
    else Success(AchievementCreate(p.name, p.nameRu, p.nameEn, p.points, p.description, p.descriptionRu, p.descriptionEn))
  }
}

=== FILE: crud.dfy ===
/** Repository operations: lookups, inserts, paging, the idempotent award
    link and the localized detail join. A store is passed in and the new
    store is returned; `now` stands for the database clock. */
module Crud {
  import opened Wrappers
  import opened Schema
  import opened ApiModels
  import Seqs

  /** Failures raised by the database or by the Python code around it. */
  datatype CrudError =
    | ValueTooLong(column: string)
    | IntegerOutOfRange(column: string)
    | UniqueViolation(column: string)
    | ForeignKeyViolation
    | BigintOutOfRange
    | NegativeOffset
    | NegativeLimit
    | NoSuchAttribute(attribute: string)
    | NulCharacter

  /** Page size of `get_achievements` when the caller gives none. */
  const DefaultLimit: int := 100

  function GetUser(s: Store, userId: int): (r: Option<User>)
    ensures r.Some? <==> HasUser(s, userId)
    ensures r.Some? ==> r.value.id == userId
    ensures r.Some? ==> exists i :: 0 <= i < |s.users| && s.users[i] == r.value
                                    && forall j :: 0 <= j < i ==> s.users[j].id != userId
  {
    match Seqs.FirstIndex(s.users, (u: User) => u.id == userId)
    case Some(i) => Some(s.users[i])
    case None => None
  }

  function GetUserByUsername(s: Store, username: string): (r: Option<User>)
    ensures r.Some? <==> exists u :: u in s.users && u.username == username
    ensures r.Some? ==> r.value.username == username
    ensures r.Some? ==> exists i :: 0 <= i < |s.users| && s.users[i] == r.value
                                    && forall j :: 0 <= j < i ==> s.users[j].username != username
  {
    match Seqs.FirstIndex(s.users, (u: User) => u.username == username)
    case Some(i) => Some(s.users[i])
    case None => None
  }

  function GetAchievement(s: Store, achievementId: int): (r: Option<Achievement>)
    ensures r.Some? <==> HasAchievement(s, achievementId)
    ensures r.Some? ==> r.value.id == achievementId
    ensures r.Some? ==> exists i :: 0 <= i < |s.achievements| && s.achievements[i] == r.value
                                    && forall j :: 0 <= j < i ==> s.achievements[j].id != achievementId
  {
    match Seqs.FirstIndex(s.achievements, (a: Achievement) => a.id == achievementId)
    case Some(i) => Some(s.achievements[i])
    case None => None
  }

  /** Inserts a user with a fresh id. The driver refuses a NUL character.
      The database cuts trailing spaces beyond a column's width, refuses any
      other over-long value, and checks the unique username on the value it
      stores. */
  function CreateUser(s: Store, input: UserCreate, now: int): (r: Result<(Store, User), CrudError>)
    ensures r.Failure? <==>
      || !NulFree(input.username) || !NulFree(input.language)
      || Varchar(input.username, UsernameWidth).None?
      || Varchar(input.language, LanguageWidth).None?
      || GetUserByUsername(s, Varchar(input.username, UsernameWidth).value).Some?
    ensures r.Failure? && !(NulFree(input.username) && NulFree(input.language)) ==> r.error == NulCharacter
    ensures && r.Failure? && NulFree(input.username) && NulFree(input.language)
            && Varchar(input.username, UsernameWidth).Some? && Varchar(input.language, LanguageWidth).Some?
            ==> r.error == UniqueViolation("username")
    ensures r.Success? ==>
      && Varchar(input.username, UsernameWidth) == Some(r.value.1.username)
      && Varchar(input.language, LanguageWidth) == Some(r.value.1.language)
      && r.value.1.createdAt == now
      && !HasUser(s, r.value.1.id)
      && r.value.0 == s.(users := s.users + [r.value.1])
  {
    if !NulFree(input.username) || !NulFree(input.language) then Failure(NulCharacter)
    else
      match Varchar(input.username, UsernameWidth)
      case None => Failure(ValueTooLong("username"))
      case Some(username) =>
        match Varchar(input.language, LanguageWidth)
        case None => Failure(ValueTooLong("language"))
        case Some(language) =>
          if GetUserByUsername(s, username).Some? then Failure(UniqueViolation("username"))
          else
            var u := User(NextId(UserIds(s.users)), username, language, now);
            Success((s.(users := s.users + [u]), u))
  }

  /** The page of achievements starting at offset `skip`, at most `limit`
      long, in stored order. Postgres refuses an offset or limit outside the
      `bigint` range while planning, and a negative one when it runs. */
  function GetAchievements(s: Store, skip: int, limit: int): (r: Result<seq<Achievement>, CrudError>)
    ensures r.Failure? <==> !InBigint(skip) || !InBigint(limit) || skip < 0 || limit < 0
    ensures r.Failure? && (!InBigint(skip) || !InBigint(limit)) ==> r.error == BigintOutOfRange
    ensures r.Failure? && InBigint(skip) && InBigint(limit) ==>
      r.error == if skip < 0 then NegativeOffset else NegativeLimit
    ensures r.Success? ==> |r.value| <= limit
    ensures r.Success? ==> forall k :: 0 <= k < |r.value| ==>
      skip + k < |s.achievements| && r.value[k] == s.achievements[skip + k]
    ensures r.Success? ==> |r.value| == limit || skip + |r.value| >= |s.achievements|
  {
    if !InBigint(skip) || !InBigint(limit) then Failure(BigintOutOfRange)
    else if skip < 0 then Failure(NegativeOffset)
    else if limit < 0 then Failure(NegativeLimit)
    else if skip >= |s.achievements| then Success([])
    else if skip + limit >= |s.achievements| then Success(s.achievements[skip..])
    else Success(s.achievements[skip..skip + limit])
  }

  /** A nullable name override as a VARCHAR(200) column stores it: NULL
      stays NULL; a string is kept, cut, or refused (`None`). */
  function OverrideVarchar(o: Option<string>): (r: Option<Option<string>>)
    ensures r.Some? <==> o.None? || Varchar(o.value, NameWidth).Some?
    ensures r.Some? ==> (r.value.Some? <==> o.Some?)
    ensures r.Some? && o.Some? ==> Varchar(o.value, NameWidth) == r.value
  {
    match o
    case None => Some(None)
    case Some(v) =>
      match Varchar(v, NameWidth)
      case None => None
      case Some(w) => Some(Some(w))
  }

  /** Every text field of the request can be sent by the driver. */
  predicate AchievementNulFree(input: AchievementCreate)
  {
    && NulFree(input.name) && TextFits(input.nameRu) && TextFits(input.nameEn)
    && NulFree(input.description) && TextFits(input.descriptionRu) && TextFits(input.descriptionEn)
  }

  /** Inserts an achievement with a fresh id. The driver refuses a NUL
      character; the names are stored as their VARCHAR(200) columns store
      them, the descriptions (TEXT) as given, and the points must fit the
      32-bit column. */
  function CreateAchievement(s: Store, input: AchievementCreate, now: int): (r: Result<(Store, Achievement), CrudError>)
    ensures r.Failure? <==>
      || !AchievementNulFree(input)
      || Varchar(input.name, NameWidth).None?
      || OverrideVarchar(input.nameRu).None? || OverrideVarchar(input.nameEn).None?
      || input.points > IntegerMax
    ensures r.Failure? && !AchievementNulFree(input) ==> r.error == NulCharacter
    ensures r.Success? ==>
      var a := r.value.1;
      && Varchar(input.name, NameWidth) == Some(a.name)
      && OverrideVarchar(input.nameRu) == Some(a.nameRu) && OverrideVarchar(input.nameEn) == Some(a.nameEn)
      && a.points == input.points
      && a.description == input.description
      && a.descriptionRu == input.descriptionRu && a.descriptionEn == input.descriptionEn
      && a.createdAt == now
      && !HasAchievement(s, a.id)
      && r.value.0 == s.(achievements := s.achievements + [a])
  {
    if !AchievementNulFree(input) then Failure(NulCharacter)
    else
      match Varchar(input.name, NameWidth)
      case None => Failure(ValueTooLong("name"))
      case Some(name) =>
        match OverrideVarchar(input.nameRu)
        case None => Failure(ValueTooLong("name_ru"))
        case Some(nameRu) =>
          match OverrideVarchar(input.nameEn)
          case None => Failure(ValueTooLong("name_en"))
          case Some(nameEn) =>
            if input.points > IntegerMax then Failure(IntegerOutOfRange("points"))
            else
              var a := Achievement(NextId(AchievementIds(s.achievements)), name, nameRu, nameEn,
                                   input.points, input.description, input.descriptionRu, input.descriptionEn, now);
              Success((s.(achievements := s.achievements + [a]), a))
  }

  predicate IsPair(row: UserAchievement, userId: int, achievementId: int)
  {
    row.userId == userId && row.achievementId == achievementId
  }

  predicate Awarded(awards: seq<UserAchievement>, userId: int, achievementId: int)
  {
    exists i :: 0 <= i < |awards| && IsPair(awards[i], userId, achievementId)
  }

  /** Links a user to an achievement unless a row for the pair exists, in
      which case that row is returned and nothing is written. A new row gets
      a fresh id and the current time; the foreign keys refuse a link to a
      missing user or achievement. */
  function AwardAchievement(s: Store, userId: int, achievementId: int, now: int)
    : (r: Result<(Store, UserAchievement), CrudError>)
    ensures Awarded(s.awards, userId, achievementId) ==>
      && r.Success?
      && r.value.0 == s
      && exists i :: 0 <= i < |s.awards| && s.awards[i] == r.value.1 && IsPair(r.value.1, userId, achievementId)
                     && forall j :: 0 <= j < i ==> !IsPair(s.awards[j], userId, achievementId)
    ensures !Awarded(s.awards, userId, achievementId) ==>
      (r.Failure? <==> !HasUser(s, userId) || !HasAchievement(s, achievementId))
    ensures r.Failure? ==> r.error == ForeignKeyViolation
    ensures !Awarded(s.awards, userId, achievementId) && r.Success? ==>
      && IsPair(r.value.1, userId, achievementId)
      && r.value.1.awardedAt == now
      && r.value.1.id !in AwardIds(s.awards)
      && r.value.0 == s.(awards := s.awards + [r.value.1])
  {
    match Seqs.FirstIndex(s.awards, (row: UserAchievement) => IsPair(row, userId, achievementId))
    case Some(i) => Success((s, s.awards[i]))
    case None =>
      if !HasUser(s, userId) || !HasAchievement(s, achievementId) then Failure(ForeignKeyViolation)
      else
        var row := UserAchievement(NextId(AwardIds(s.awards)), userId, achievementId, now);
        Success((s.(awards := s.awards + [row]), row))
  }

  /** The award rows of one user, in stored order. */
  function GetUserAchievements(s: Store, userId: int): (r: seq<UserAchievement>)
    ensures forall row :: row in r <==> row in s.awards && row.userId == userId
    ensures forall row :: multiset(r)[row] == if row.userId == userId then multiset(s.awards)[row] else 0
  {
    Seqs.Filter(s.awards, (row: UserAchievement) => row.userId == userId)
  }

  /** The locales that have override columns. */
  datatype Locale = Ru | En

  /** The locale whose `name_<language>` column exists, if any. */
  function LocaleOf(language: string): (r: Option<Locale>)
    ensures r == Some(Ru) <==> language == "ru"
    ensures r == Some(En) <==> language == "en"
  {
    if language == "ru" then Some(Ru)
    else if language == "en" then Some(En)
    else None
  }

  function NameOverride(a: Achievement, l: Locale): Option<string>
  {
    match l
    case Ru => a.nameRu
    case En => a.nameEn
  }

  function DescriptionOverride(a: Achievement, l: Locale): Option<string>
  {
    match l
    case Ru => a.descriptionRu
    case En => a.descriptionEn
  }

  /** Python's `override or fallback`: `None` and the empty string are falsy. */
  function OrElse(override: Option<string>, fallback: string): (r: string)
    ensures override.Some? && override.value != "" ==> r == override.value
    ensures override.None? || override.value == "" ==> r == fallback
  {
    match override
    case Some(v) => if v != "" then v else fallback
    case None => fallback
  }

  /** One detail entry: name and description each fall back to the
      canonical text on their own; points and date are copied. */
  function Localize(row: UserAchievement, a: Achievement, l: Locale): (d: UserAchievementDetail)
    ensures NameOverride(a, l).Some? && NameOverride(a, l).value != "" ==> d.name == NameOverride(a, l).value
    ensures NameOverride(a, l).None? || NameOverride(a, l).value == "" ==> d.name == a.name
    ensures DescriptionOverride(a, l).Some? && DescriptionOverride(a, l).value != "" ==>
      d.description == DescriptionOverride(a, l).value
    ensures DescriptionOverride(a, l).None? || DescriptionOverride(a, l).value == "" ==>
      d.description == a.description
    ensures d.points == a.points && d.awardedAt == row.awardedAt
  {
    UserAchievementDetail(
      OrElse(NameOverride(a, l), a.name),
      OrElse(DescriptionOverride(a, l), a.description),
      a.points,
      row.awardedAt)
  }

  /** A row of the user whose achievement is stored joins with it. */
  predicate Joins(s: Store, row: UserAchievement, userId: int)
  {
    row.userId == userId && HasAchievement(s, row.achievementId)
  }

  /** The inner join of `rows` (filtered to one user) with the achievements. */
  function JoinRows(s: Store, rows: seq<UserAchievement>, userId: int): (r: seq<(UserAchievement, Achievement)>)
    ensures |r| <= |rows|
    ensures forall k :: 0 <= k < |r| ==>
      r[k].0 in rows && Joins(s, r[k].0, userId) && GetAchievement(s, r[k].0.achievementId) == Some(r[k].1)
  {
    if |rows| == 0 then []
    else
      var rest := JoinRows(s, rows[1..], userId);
      if rows[0].userId == userId then
        match GetAchievement(s, rows[0].achievementId)
        case Some(a) => [(rows[0], a)] + rest
        case None => rest
      else rest
  }

  /** The user's rows in `rows` whose achievement is stored, in order. */
  function JoinableRows(s: Store, rows: seq<UserAchievement>, userId: int): (r: seq<UserAchievement>)
    ensures forall row :: row in r <==> row in rows && Joins(s, row, userId)
    ensures |r| <= |rows|
  {
    if |rows| == 0 then []
    else if Joins(s, rows[0], userId) then [rows[0]] + JoinableRows(s, rows[1..], userId)
    else JoinableRows(s, rows[1..], userId)
  }

  /** The join yields exactly the user's rows whose achievement is stored,
      one entry each, in stored order. */
  lemma {:induction false} JoinRowsInOrder(s: Store, rows: seq<UserAchievement>, userId: int)
    ensures var r := JoinRows(s, rows, userId);
      var f := JoinableRows(s, rows, userId);
      |r| == |f| && forall k :: 0 <= k < |r| ==> r[k].0 == f[k]
  {
    if |rows| > 0 {
      JoinRowsInOrder(s, rows[1..], userId);
      if Joins(s, rows[0], userId) {
        JoinStepKeeps(s, rows, userId);
        ConsKeepsFirsts(rows[0], GetAchievement(s, rows[0].achievementId).value,
                        JoinRows(s, rows[1..], userId), JoinableRows(s, rows[1..], userId));
      } else {
        JoinStepSkips(s, rows, userId);
      }
    }
  }

  lemma JoinStepKeeps(s: Store, rows: seq<UserAchievement>, userId: int)
    requires |rows| > 0 && Joins(s, rows[0], userId)
    ensures JoinRows(s, rows, userId)
         == [(rows[0], GetAchievement(s, rows[0].achievementId).value)] + JoinRows(s, rows[1..], userId)
    ensures JoinableRows(s, rows, userId) == [rows[0]] + JoinableRows(s, rows[1..], userId)
  {
  }

  lemma JoinStepSkips(s: Store, rows: seq<UserAchievement>, userId: int)
    requires |rows| > 0 && !Joins(s, rows[0], userId)
    ensures JoinRows(s, rows, userId) == JoinRows(s, rows[1..], userId)
    ensures JoinableRows(s, rows, userId) == JoinableRows(s, rows[1..], userId)
  {
    assert GetAchievement(s, rows[0].achievementId).None? || rows[0].userId != userId;
  }

  lemma ConsKeepsFirsts<A, B>(x: A, y: B, rest: seq<(A, B)>, firsts: seq<A>)
    requires |rest| == |firsts| && forall k :: 0 <= k < |rest| ==> rest[k].0 == firsts[k]
    ensures |[(x, y)] + rest| == |[x] + firsts|
    ensures forall k :: 0 <= k < |rest| + 1 ==> ([(x, y)] + rest)[k].0 == ([x] + firsts)[k]
  {
    forall k | 0 <= k < |rest| + 1
      ensures ([(x, y)] + rest)[k].0 == ([x] + firsts)[k]
    {
      if k > 0 {
        assert ([(x, y)] + rest)[k] == rest[k - 1];
      }
    }
  }

  function Joined(s: Store, userId: int): seq<(UserAchievement, Achievement)>
  {
    JoinRows(s, s.awards, userId)
  }

  /** The user's achievements in join order, localized to `language`. The
      attribute lookup fails for a language without override columns, but
      only once there is a joined row to localize. */
  function GetUserAchievementsWithDetails(s: Store, userId: int, language: string)
    : (r: Result<seq<UserAchievementDetail>, CrudError>)
    ensures r.Failure? <==> |Joined(s, userId)| > 0 && LocaleOf(language).None?
    ensures r.Failure? ==> r.error == NoSuchAttribute("name_" + language)
    ensures r.Success? ==> |r.value| == |Joined(s, userId)|
    ensures r.Success? && |r.value| > 0 ==>
      var j := Joined(s, userId);
      forall k :: 0 <= k < |r.value| ==> r.value[k] == Localize(j[k].0, j[k].1, LocaleOf(language).value)
  {
    var j := Joined(s, userId);
    if |j| == 0 then Success([])
    else
      match LocaleOf(language)
      case None => Failure(NoSuchAttribute("name_" + language))
      case Some(l) => Success(seq(|j|, k requires 0 <= k < |j| => Localize(j[k].0, j[k].1, l)))
  }

  /** Creating a user keeps the database's invariants. */
  lemma CreateUserPreservesValid(s: Store, input: UserCreate, now: int)
    requires Valid(s)
    ensures var r := CreateUser(s, input, now); r.Success? ==> Valid(r.value.0)
  {
  }

  /** Creating an achievement keeps the database's invariants, and keeps all
      points positive. */
  lemma CreateAchievementPreservesValid(s: Store, input: AchievementCreate, now: int)
    requires Valid(s)
    ensures var r := CreateAchievement(s, input, now);
      r.Success? ==> Valid(r.value.0) && (PositivePoints(s) ==> PositivePoints(r.value.0))
  {
  }

  /** Awarding keeps the database's invariants and, from a state with one
      row per pair, keeps one row per pair. */
  lemma AwardPreservesInvariants(s: Store, userId: int, achievementId: int, now: int)
    requires Valid(s)
    ensures var r := AwardAchievement(s, userId, achievementId, now);
      r.Success? ==> Valid(r.value.0) && (OneRowPerPair(s.awards) ==> OneRowPerPair(r.value.0.awards))
  {
    var r := AwardAchievement(s, userId, achievementId, now);
    if r.Success? && !Awarded(s.awards, userId, achievementId) {
      var s', row := r.value.0, r.value.1;
      assert AwardIds(s.awards + [row]) == AwardIds(s.awards) + [row.id];
      DistinctAppendFresh(AwardIds(s.awards));
      forall k | 0 <= k < |s'.awards|
        ensures HasUser(s', s'.awards[k].userId) && HasAchievement(s', s'.awards[k].achievementId)
      {
        if k < |s.awards| {
          assert s'.awards[k] == s.awards[k];
        }
      }
      if OneRowPerPair(s.awards) {
        forall i, j | 0 <= i < j < |s'.awards|
          ensures s'.awards[i].userId != s'.awards[j].userId || s'.awards[i].achievementId != s'.awards[j].achievementId
        {
          if j == |s.awards| {
            assert !IsPair(s.awards[i], userId, achievementId);
          }
        }
      }
    }
  }

  /** Awarding the same pair again returns the same row (same id, same
      timestamp) and writes nothing, whatever the clock says. */
  lemma AwardIdempotent(s: Store, userId: int, achievementId: int, now: int, later: int)
    requires OneRowPerPair(s.awards)
    requires AwardAchievement(s, userId, achievementId, now).Success?
    ensures var (s1, row1) := AwardAchievement(s, userId, achievementId, now).value;
      var r2 := AwardAchievement(s1, userId, achievementId, later);
      r2 == Success((s1, row1))
  {
    var r := AwardAchievement(s, userId, achievementId, now);
    var s1, row1 := r.value.0, r.value.1;
    if !Awarded(s.awards, userId, achievementId) {
      assert s1.awards[|s.awards|] == row1;
      assert Awarded(s1.awards, userId, achievementId);
      var r2 := AwardAchievement(s1, userId, achievementId, later);
      var i :| 0 <= i < |s1.awards| && s1.awards[i] == r2.value.1 && IsPair(r2.value.1, userId, achievementId)
                 && forall j :: 0 <= j < i ==> !IsPair(s1.awards[j], userId, achievementId);
    }
  }
}

=== FILE: endpoints.dfy ===
/** The request layer: the guards each route runs before calling the
    repository, the mapping of failures to HTTP statuses, and the mapping
    of empty statistics to an informational 200 reply. */
module Endpoints {
  import opened Wrappers
  import opened Schema
  import opened ApiModels
  import Crud
  import Stats

  /** An HTTP error reply: status code and `detail` text. */
  datatype HttpError = HttpError(status: nat, detail: string)

  const BadRequest: nat := 400
  const NotFound: nat := 404
  const Unprocessable: nat := 422
  /** An exception escaping a route. */
  const ServerError: nat := 500

  const UsernameTaken: string := "Username already registered"
  const UserNotFound: string := "User not found"
  const AchievementNotFound: string := "Achievement not found"

  function Internal(): HttpError
  {
    HttpError(ServerError, "Internal Server Error")
  }

  /** A statistics reply: the result, or a successful message saying there
      was nothing to report. */
  datatype StatsReply<+T> = Data(body: T) | Info(message: string)

  /** The reply of the user-achievements route. */
  datatype UserAchievementsReply = UserAchievementsReply(
    userId: int, username: string, language: string, achievements: seq<UserAchievementDetail>)

  /** POST /users/: a taken username is refused with 400 before anything is
      written; otherwise the user is stored with the requested or default
      language. The lookup itself fails (500) on a username holding NUL. */
  function CreateUserRoute(s: Store, p: UserPayload, now: int): (r: Result<(Store, User), HttpError>)
    ensures (NulFree(p.username) && exists u :: u in s.users && u.username == p.username)
            <==> r == Failure(HttpError(BadRequest, UsernameTaken))
    ensures r.Success? <==>
      && !(exists u :: u in s.users && u.username == p.username)
      && Crud.CreateUser(s, ParseUserCreate(p), now).Success?
    ensures r.Success? ==> r.value == Crud.CreateUser(s, ParseUserCreate(p), now).value
    ensures r.Success? && |p.username| <= UsernameWidth ==> r.value.1.username == p.username
    ensures r.Success? && p.language.None? ==> r.value.1.language == DefaultLanguage
    ensures r.Failure? && r.error.status != BadRequest ==> r.error == Internal()
  {
    var input := ParseUserCreate(p);
    if !NulFree(input.username) then Failure(Internal())
    else if Crud.GetUserByUsername(s, input.username).Some? then Failure(HttpError(BadRequest, UsernameTaken))
    else
      match Crud.CreateUser(s, input, now)
      case Success(v) => Success(v)
      case Failure(_) => Failure(Internal())
  }

  /** GET /users/{id}: 404 when no user has that id. */
  function GetUserRoute(s: Store, userId: int): (r: Result<User, HttpError>)
    ensures r.Failure? <==> !HasUser(s, userId)
    ensures r.Failure? ==> r.error == HttpError(NotFound, UserNotFound)
    ensures r.Success? ==> r.value in s.users && r.value.id == userId
  {
    match Crud.GetUser(s, userId)
    case None => Failure(HttpError(NotFound, UserNotFound))
    case Some(u) => Success(u)
  }

  /** The response model of an achievement inherits `points > 0`, so every
      achievement a route returns is validated against it. */
  predicate ResponsePointsValid(page: seq<Achievement>)
  {
    forall a :: a in page ==> a.points > 0
  }

  /** GET /achievements/: `skip` defaults to 0 and `limit` to 100. The page
      is then validated against the response model: an achievement with
      non-positive points, which only a store written outside the API can
      hold, makes the reply a 500. */
  function GetAchievementsRoute(s: Store, skip: Option<int>, limit: Option<int>): (r: Result<seq<Achievement>, HttpError>)
    ensures skip.None? && limit.None? ==>
      var first := s.achievements[..if |s.achievements| < Crud.DefaultLimit then |s.achievements| else Crud.DefaultLimit];
      && (r.Success? <==> ResponsePointsValid(first))
      && (r.Success? ==> r.value == first)
    ensures r.Failure? <==>
      || !InBigint(skip.GetOr(0)) || !InBigint(limit.GetOr(Crud.DefaultLimit))
      || skip.GetOr(0) < 0 || limit.GetOr(Crud.DefaultLimit) < 0
      || exists i :: 0 <= i < |Crud.GetAchievements(s, skip.GetOr(0), limit.GetOr(Crud.DefaultLimit)).value| &&
           Crud.GetAchievements(s, skip.GetOr(0), limit.GetOr(Crud.DefaultLimit)).value[i].points <= 0
    ensures PositivePoints(s) ==> (r.Failure? <==>
      || !InBigint(skip.GetOr(0)) || !InBigint(limit.GetOr(Crud.DefaultLimit))
      || skip.GetOr(0) < 0 || limit.GetOr(Crud.DefaultLimit) < 0)
    ensures r.Failure? ==> r.error == Internal()
    ensures r.Success? ==> Crud.GetAchievements(s, skip.GetOr(0), limit.GetOr(Crud.DefaultLimit)) == Success(r.value)
  {
    match Crud.GetAchievements(s, skip.GetOr(0), limit.GetOr(Crud.DefaultLimit))
    case Success(page) => if ResponsePointsValid(page) then Success(page) else Failure(Internal())
    case Failure(_) => Failure(Internal())
  }

  /** POST /achievements/: non-positive points are refused with 422 before
      anything is written. */
  function CreateAchievementRoute(s: Store, p: AchievementPayload, now: int): (r: Result<(Store, Achievement), HttpError>)
    ensures p.points <= 0 ==> r.Failure? && r.error.status == Unprocessable
    ensures r.Failure? && r.error.status == Unprocessable ==> p.points <= 0
    ensures r.Success? <==> p.points > 0 && Crud.CreateAchievement(s, ValidateAchievement(p).value, now).Success?
    ensures r.Success? ==> r.value == Crud.CreateAchievement(s, ValidateAchievement(p).value, now).value
    ensures r.Success? ==>
      && r.value.1.points == p.points > 0
      && r.value.1.description == p.description
      && r.value.0 == s.(achievements := s.achievements + [r.value.1])
    ensures r.Success? && |p.name| <= NameWidth ==> r.value.1.name == p.name
    ensures r.Failure? && r.error.status != Unprocessable ==> r.error == Internal()
  {
    match ValidateAchievement(p)
    case Failure(_) => Failure(HttpError(Unprocessable, "points: Input should be greater than 0"))
    case Success(input) =>
      match Crud.CreateAchievement(s, input, now)
      case Success(v) => Success(v)
      case Failure(_) => Failure(Internal())
  }

  /** POST /achievements/award/: the user is looked up first, then the
      achievement; either missing is a 404 with nothing written. Otherwise
      the idempotent link is made and reported with both names. */
  function AwardRoute(s: Store, award: UserAchievementBase, now: int): (r: Result<(Store, AwardResponse), HttpError>)
    ensures !HasUser(s, award.userId) ==> r == Failure(HttpError(NotFound, UserNotFound))
    ensures HasUser(s, award.userId) && !HasAchievement(s, award.achievementId) ==>
      r == Failure(HttpError(NotFound, AchievementNotFound))
    ensures HasUser(s, award.userId) && HasAchievement(s, award.achievementId) ==>
      && r.Success?
      && var (s', row) := Crud.AwardAchievement(s, award.userId, award.achievementId, now).value;
         && r.value.0 == s'
         && r.value.1 == AwardResponse(row.id, row.userId, row.achievementId, row.awardedAt,
                                       Some(Crud.GetUser(s, award.userId).value.username),
                                       Some(Crud.GetAchievement(s, award.achievementId).value.name))
  {
    match Crud.GetUser(s, award.userId)
    case None => Failure(HttpError(NotFound, UserNotFound))
    case Some(user) =>
      match Crud.GetAchievement(s, award.achievementId)
      case None => Failure(HttpError(NotFound, AchievementNotFound))
      case Some(achievement) =>
        match Crud.AwardAchievement(s, award.userId, award.achievementId, now)
        case Failure(_) => Failure(Internal())
        case Success((s', row)) =>
          Success((s', AwardResponse(row.id, row.userId, row.achievementId, row.awardedAt,
                                     Some(user.username), Some(achievement.name))))
  }

  /** GET /users/{id}/achievements/: 404 for a missing user; otherwise the
      user's achievements localized to the user's own language. */
  function UserAchievementsRoute(s: Store, userId: int): (r: Result<UserAchievementsReply, HttpError>)
    ensures !HasUser(s, userId) <==> r == Failure(HttpError(NotFound, UserNotFound))
    ensures r.Success? ==>
      && r.value.userId == userId
      && |r.value.achievements| == |Crud.Joined(s, userId)|
      && exists u :: u in s.users && u.id == userId && u.username == r.value.username && u.language == r.value.language
    ensures r.Success? ==>
      && HasUser(s, userId)
      && Crud.GetUserAchievementsWithDetails(s, userId, r.value.language) == Success(r.value.achievements)
    ensures r.Failure? && r.error.status != NotFound <==>
      && HasUser(s, userId)
      && |Crud.Joined(s, userId)| > 0
      && Crud.LocaleOf(Crud.GetUser(s, userId).value.language).None?
    ensures r.Failure? && r.error.status != NotFound ==> r.error == Internal()
  {
    match Crud.GetUser(s, userId)
    case None => Failure(HttpError(NotFound, UserNotFound))
    case Some(user) =>
      match Crud.GetUserAchievementsWithDetails(s, userId, user.language)
      case Failure(_) => Failure(Internal())
      case Success(details) => Success(UserAchievementsReply(userId, user.username, user.language, details))
  }

  /** GET /stats/max-achievements/ */
  function MaxAchievementsRoute(s: Store): (r: StatsReply<StatsResponse>)
    ensures r.Info? <==> Stats.UserWithMaxAchievements(s).None?
    ensures r.Info? ==> r.message == "No achievements found"
    ensures r.Data? ==> Stats.UserWithMaxAchievements(s) == Some(r.body)
  {
    match Stats.UserWithMaxAchievements(s)
    case None => Info("No achievements found")
    case Some(v) => Data(v)
  }

  /** GET /stats/max-points/ */
  function MaxPointsRoute(s: Store): (r: StatsReply<StatsResponse>)
    ensures r.Info? <==> Stats.UserWithMaxPoints(s).None?
    ensures r.Info? ==> r.message == "No achievements found"
    ensures r.Data? ==> Stats.UserWithMaxPoints(s) == Some(r.body)
  {
    match Stats.UserWithMaxPoints(s)
    case None => Info("No achievements found")
    case Some(v) => Data(v)
  }

  /** GET /stats/max-difference/ */
  function MaxDifferenceRoute(s: Store): (r: StatsReply<UserDifference>)
    ensures r.Info? <==> |Stats.Eligible(s)| < 2
    ensures r.Info? ==> r.message == "Not enough users with achievements"
    ensures r.Data? ==> Stats.UsersWithMaxDifference(s) == Some(r.body)
  {
    match Stats.UsersWithMaxDifference(s)
    case None => Info("Not enough users with achievements")
    case Some(v) => Data(v)
  }

  /** GET /stats/min-difference/ */
  method MinDifferenceRoute(s: Store) returns (r: StatsReply<UserDifference>)
    ensures r.Info? <==> |Stats.Eligible(s)| < 2
    ensures r.Info? ==> r.message == "Could not calculate minimum difference"
    ensures r.Data? ==> r.body.difference >= 0
    ensures r.Data? ==> Stats.FirstSmallestAdjacentGap(Stats.SortByPoints(Stats.Eligible(s)), r.body)
    ensures r.Data? ==>
      && Stats.PointsRow(r.body.user1Id, r.body.user1Name, Stats.Total(s, r.body.user1Id)) in Stats.Eligible(s)
      && Stats.PointsRow(r.body.user2Id, r.body.user2Name, Stats.Total(s, r.body.user2Id)) in Stats.Eligible(s)
    ensures r.Data? ==> forall a, b :: a in Stats.Eligible(s) && b in Stats.Eligible(s) && a != b ==>
      r.body.difference <= Stats.Distance(a.points, b.points)
  {
    var d := Stats.UsersWithMinDifference(s);
    match d
    case None => r := Info("Could not calculate minimum difference");
    case Some(v) => r := Data(v);
  }

  /** GET /stats/seven-day-streak/: the list is returned as it is, empty or not. */
  function StreakRoute(s: Store, today: int): (r: seq<StreakEntry>)
    ensures |r| <= |s.users|
    ensures Distinct(UserIds(s.users)) ==> Stats.OneEntryPerUser(r)
    ensures forall e :: e in r <==>
      exists u :: u in s.users && Stats.Streak(s.awards, u.id, today) && e == Stats.EntryOf(s, u, today)
    ensures forall e :: e in r ==> e.streakEnd == today && e.achievementsCount >= Stats.StreakLength
  {
    Stats.SevenDayStreakUsers(s, today)
  }

  // ---------------------------------------------------------------------
  // Runs of requests

  /** The requests that write. `at` is the database clock at the request. */
  datatype Request =
    | CreateUserRequest(user: UserPayload, at: int)
    | CreateAchievementRequest(achievement: AchievementPayload, at: int)
    | AwardRequest(award: UserAchievementBase, at: int)

  /** The store after one request; a refused request leaves it as it was.
      Each table only grows, and by at most one row in all. */
  function Apply(s: Store, req: Request): (s': Store)
    ensures s.users <= s'.users && s.achievements <= s'.achievements && s.awards <= s'.awards
    ensures |s'.users| + |s'.achievements| + |s'.awards| <= |s.users| + |s.achievements| + |s.awards| + 1
  {
    match req
    case CreateUserRequest(p, at) =>
      (match CreateUserRoute(s, p, at) case Success(v) => v.0 case Failure(_) => s)
    case CreateAchievementRequest(p, at) =>
      (match CreateAchievementRoute(s, p, at) case Success(v) => v.0 case Failure(_) => s)
    case AwardRequest(a, at) =>
      (match AwardRoute(s, a, at) case Success(v) => v.0 case Failure(_) => s)
  }

  function Run(s: Store, reqs: seq<Request>): Store
    decreases |reqs|
  {
    if |reqs| == 0 then s else Run(Apply(s, reqs[0]), reqs[1..])
  }

  /** The invariants every store served by the API keeps. */
  predicate Served(s: Store)
  {
    Valid(s) && PositivePoints(s) && OneRowPerPair(s.awards)
  }

  lemma ApplyKeepsServed(s: Store, req: Request)
    requires Served(s)
    ensures Served(Apply(s, req))
  {
    match req
    case CreateUserRequest(p, at) =>
      Crud.CreateUserPreservesValid(s, ParseUserCreate(p), at);
    case CreateAchievementRequest(p, at) =>
      if ValidateAchievement(p).Success? {
        Crud.CreateAchievementPreservesValid(s, ValidateAchievement(p).value, at);
      }
    case AwardRequest(a, at) =>
      Crud.AwardPreservesInvariants(s, a.userId, a.achievementId, at);
  }

  /** Starting from an empty database, every run of requests leaves a store
      with its keys, widths and references intact, only positive points, and
      at most one award row per pair. */
  lemma {:induction false} RunKeepsServed(s: Store, reqs: seq<Request>)
    requires Served(s)
    ensures Served(Run(s, reqs))
    decreases |reqs|
  {
    if |reqs| > 0 {
      ApplyKeepsServed(s, reqs[0]);
      RunKeepsServed(Apply(s, reqs[0]), reqs[1..]);
    }
  }

  /** Every state the API can reach from an empty database is served. */
  lemma ServedFromEmpty(reqs: seq<Request>)
    ensures Served(Run(Store([], [], []), reqs))
  {
    RunKeepsServed(Store([], [], []), reqs);
  }
}

=== FILE: scenarios.dfy ===
/** The statistics scenarios of the service's own test-suite, worked out on
    the model: three users whose totals are 10, 30 and 50, three whose
    totals are 20, 30 and 50, and two whose totals are 50 and 100. */
module Scenarios {
  import opened Wrappers
  import opened Schema
  import opened ApiModels
  import Stats
  import Endpoints

  function Ach(id: int, points: int): Achievement
  {
    Achievement(id, "Test", None, None, points, "Test", None, None, 0)
  }

  /** Three users, each awarded one achievement worth the given points. */
  function ThreeUsers(p0: int, p1: int, p2: int): Store
  {
    Store(
      [User(1, "user0", "ru", 0), User(2, "user1", "ru", 0), User(3, "user2", "ru", 0)],
      [Ach(1, p0), Ach(2, p1), Ach(3, p2)],
      [UserAchievement(1, 1, 1, 0), UserAchievement(2, 2, 2, 0), UserAchievement(3, 3, 3, 0)])
  }

  function ThreeRows(p0: int, p1: int, p2: int): seq<Stats.PointsRow>
  {
    [Stats.PointsRow(1, "user0", p0), Stats.PointsRow(2, "user1", p1), Stats.PointsRow(3, "user2", p2)]
  }

  /** Totals 10, 30 and 50: every user is eligible with their own points. */
  lemma TenThirtyFiftyEligible()
    ensures Stats.Eligible(ThreeUsers(10, 30, 50)) == ThreeRows(10, 30, 50)
  {
    var s := ThreeUsers(10, 30, 50);
    assert Stats.RowPoints(s, s.awards[0]) == 10;
    assert Stats.RowPoints(s, s.awards[1]) == 30;
    assert Stats.RowPoints(s, s.awards[2]) == 50;
    assert Stats.Total(s, 1) == 10;
    assert Stats.Total(s, 2) == 30;
    assert Stats.Total(s, 3) == 50;
  }

  /** Totals 20, 30 and 50: every user is eligible with their own points. */
  lemma TwentyThirtyFiftyEligible()
    ensures Stats.Eligible(ThreeUsers(20, 30, 50)) == ThreeRows(20, 30, 50)
  {
    var s := ThreeUsers(20, 30, 50);
    assert Stats.RowPoints(s, s.awards[0]) == 20;
    assert Stats.RowPoints(s, s.awards[1]) == 30;
    assert Stats.RowPoints(s, s.awards[2]) == 50;
    assert Stats.Total(s, 1) == 20;
    assert Stats.Total(s, 2) == 30;
    assert Stats.Total(s, 3) == 50;
  }

  /** Any store whose eligible totals are 10, 30 and 50 pairs the first
      and the last user, 40 apart. */
  lemma MaxDifferenceOfRows(s: Store)
    requires Stats.Eligible(s) == ThreeRows(10, 30, 50)
    ensures Stats.UsersWithMaxDifference(s) == Some(UserDifference(1, "user0", 3, "user2", 40))
  {
  }

  /** Totals 10, 30 and 50: the extremes are 40 apart. */
  lemma MaxDifferenceExample()
    ensures Stats.UsersWithMaxDifference(ThreeUsers(10, 30, 50)) == Some(UserDifference(1, "user0", 3, "user2", 40))
  {
    TenThirtyFiftyEligible();
    MaxDifferenceOfRows(ThreeUsers(10, 30, 50));
  }

  /** Rows already in ascending order sort to themselves. */
  lemma AscendingRowsSorted(p0: int, p1: int, p2: int)
    requires p0 <= p1 <= p2
    ensures Stats.SortByPoints(ThreeRows(p0, p1, p2)) == ThreeRows(p0, p1, p2)
  {
    var e := ThreeRows(p0, p1, p2);
    assert Stats.SortByPoints(e[2..]) == e[2..];
    assert Stats.SortByPoints(e[1..]) == e[1..];
  }

  /** In the sorted rows 20, 30, 50 the first smallest gap is the first one. */
  lemma CloseRowsPair(r: UserDifference)
    requires Stats.FirstSmallestAdjacentGap(ThreeRows(20, 30, 50), r)
    ensures r == UserDifference(1, "user0", 2, "user1", 10)
  {
    var e := ThreeRows(20, 30, 50);
    var k :| 0 <= k < |e| - 1 && Stats.IsPairAt(e, k, r) && Stats.EarlierGapsLarger(e, k, r.difference);
    assert e[1].points - e[0].points == 10 && e[2].points - e[1].points == 20;
  }

  /** Totals 20, 30 and 50: the closest pair is the first two, 10 apart. */
  method MinDifferenceExample() returns (r: Option<UserDifference>)
    ensures r == Some(UserDifference(1, "user0", 2, "user1", 10))
  {
    TwentyThirtyFiftyEligible();
    AscendingRowsSorted(20, 30, 50);
    r := Stats.UsersWithMinDifference(ThreeUsers(20, 30, 50));
    CloseRowsPair(r.value);
  }

  function TwoUsers(): Store
  {
    Store(
      [User(1, "user1", "ru", 0), User(2, "user2", "en", 0)],
      [Ach(1, 50), Ach(2, 100)],
      [UserAchievement(1, 1, 1, 0), UserAchievement(2, 2, 2, 0)])
  }

  /** Totals 50 and 100: the leader by points is the second user. */
  lemma MaxPointsExample()
    ensures Stats.UserWithMaxPoints(TwoUsers()) == Some(StatsResponse(2, "user2", 100))
  {
  }

  /** A language of "ru " is accepted and stored as "ru": the excess over
      the column's two characters is a space. */
  lemma TrailingSpaceCut()
    ensures var r := Endpoints.CreateUserRoute(Store([], [], []), UserPayload("bob", Some("ru ")), 0);
      r.Success? && r.value.1.language == "ru" && r.value.1.username == "bob"
  {
    assert "ru "[LanguageWidth..] == " " && "ru "[..LanguageWidth] == "ru";
    assert Varchar("ru ", LanguageWidth) == Some("ru");
  }

  /** A username holding NUL cannot even be looked up: the route answers 500
      and nothing is stored. */
  lemma NulRefused()
    ensures Endpoints.CreateUserRoute(Store([], [], []), UserPayload("a\0b", None), 0) == Failure(Endpoints.Internal())
  {
    assert "a\0b"[1] == '\0';
  }

  /** An offset one past the `bigint` range is refused with a 500, on any
      store. */
  lemma HugeOffsetRefused(s: Store)
    ensures Endpoints.GetAchievementsRoute(s, Some(0x8000_0000_0000_0000), None) == Failure(Endpoints.Internal())
  {
  }

  /** An achievement worth 0 points, which only a store written outside the
      API can hold, fails the response model's `points > 0`: the listing
      answers 500 instead of the page. */
  lemma ZeroPointsPageRefused()
    ensures Endpoints.GetAchievementsRoute(
      Store([], [Achievement(1, "a", None, None, 0, "d", None, None, 0)], []), None, None)
      == Failure(Endpoints.Internal())
  {
  }
}

=== FILE: schema.dfy ===
/** The three tables of the achievements store and the invariants the
    database keeps over them (primary keys, the unique username, foreign
    keys, column widths). Timestamps are integers; award dates are the
    calendar day number of the award. */
module Schema {
  import opened Wrappers

  /** Width of `users.username` (VARCHAR(100)). */
  const UsernameWidth: nat := 100
  /** Width of `users.language` (VARCHAR(2)). */
  const LanguageWidth: nat := 2
  /** Width of `achievements.name`, `name_ru`, `name_en` (VARCHAR(200)). */
  const NameWidth: nat := 200
  /** Bounds of a Postgres `integer` column such as `achievements.points`. */
  const IntegerMin: int := -0x8000_0000
  const IntegerMax: int := 0x7fff_ffff
  /** Bounds of a Postgres `bigint`, the type OFFSET and LIMIT take. */
  const BigintMin: int := -0x8000_0000_0000_0000
  const BigintMax: int := 0x7fff_ffff_ffff_ffff

  predicate InBigint(x: int)
  {
    BigintMin <= x <= BigintMax
  }

  datatype User = User(id: int, username: string, language: string, createdAt: int)

  /** The `_ru` / `_en` columns are nullable overrides of the canonical text. */
  datatype Achievement = Achievement(
    id: int,
    name: string,
    nameRu: Option<string>,
    nameEn: Option<string>,
    points: int,
    description: string,
    descriptionRu: Option<string>,
    descriptionEn: Option<string>,
    createdAt: int)

  /** An award row refers to its user and achievement by id only. */
  datatype UserAchievement = UserAchievement(id: int, userId: int, achievementId: int, awardedAt: int)

  datatype Store = Store(users: seq<User>, achievements: seq<Achievement>, awards: seq<UserAchievement>)

  function UserIds(users: seq<User>): (ids: seq<int>)
    ensures |ids| == |users|
    ensures forall i :: 0 <= i < |users| ==> ids[i] == users[i].id
  {
    seq(|users|, i requires 0 <= i < |users| => users[i].id)
  }

  function AchievementIds(achievements: seq<Achievement>): (ids: seq<int>)
    ensures |ids| == |achievements|
    ensures forall i :: 0 <= i < |achievements| ==> ids[i] == achievements[i].id
  {
    seq(|achievements|, i requires 0 <= i < |achievements| => achievements[i].id)
  }

  function AwardIds(awards: seq<UserAchievement>): (ids: seq<int>)
    ensures |ids| == |awards|
    ensures forall i :: 0 <= i < |awards| ==> ids[i] == awards[i].id
  {
    seq(|awards|, i requires 0 <= i < |awards| => awards[i].id)
  }

  predicate Distinct(xs: seq<int>)
  {
    forall i, j :: 0 <= i < j < |xs| ==> xs[i] != xs[j]
  }

  /** The id the `SERIAL` column hands out next: above every stored id. */
  function NextId(ids: seq<int>): (r: int)
    ensures r >= 1
    ensures forall i :: 0 <= i < |ids| ==> ids[i] < r
  {
    if |ids| == 0 then 1
    else
      var rest := NextId(ids[1..]);
      if ids[0] < rest then rest else ids[0] + 1
  }

  lemma DistinctAppendFresh(ids: seq<int>)
    requires Distinct(ids)
    ensures Distinct(ids + [NextId(ids)])
  {
  }

  /** A string the database driver can send: it refuses the NUL character. */
  predicate NulFree(v: string)
  {
    forall i :: 0 <= i < |v| ==> v[i] != '\0'
  }

  predicate AllSpaces(v: string)
  {
    forall i :: 0 <= i < |v| ==> v[i] == ' '
  }

  /** Assigning `v` to a VARCHAR(width) column. A value that fits is kept.
      A longer one is cut to `width` characters when everything past them
      is spaces, and refused otherwise. */
  function Varchar(v: string, width: nat): (r: Option<string>)
    ensures r.Some? <==> |v| <= width || AllSpaces(v[width..])
    ensures r.Some? ==> |r.value| <= width && r.value <= v && AllSpaces(v[|r.value|..])
    ensures r.Some? && |v| <= width ==> r.value == v
    ensures r.Some? && |v| > width ==> |r.value| == width
    ensures r.Some? && NulFree(v) ==> NulFree(r.value)
  {
    if |v| <= width then Some(v)
    else if AllSpaces(v[width..]) then Some(v[..width])
    else None
  }

  /** A stored value is stored again unchanged. */
  lemma VarcharStable(v: string, width: nat)
    requires Varchar(v, width).Some?
    ensures Varchar(Varchar(v, width).value, width) == Varchar(v, width)
  {
  }

  predicate HasUser(s: Store, userId: int)
  {
    exists u :: u in s.users && u.id == userId
  }

  predicate HasAchievement(s: Store, achievementId: int)
  {
    exists a :: a in s.achievements && a.id == achievementId
  }

  predicate UsernamesUnique(users: seq<User>)
  {
    forall i, j :: 0 <= i < j < |users| ==> users[i].username != users[j].username
  }

  predicate UserFits(u: User)
  {
    && |u.username| <= UsernameWidth && |u.language| <= LanguageWidth
    && NulFree(u.username) && NulFree(u.language)
  }

  /** A nullable text column holds NULL or a NUL-free string. */
  predicate TextFits(o: Option<string>)
  {
    o.Some? ==> NulFree(o.value)
  }

  predicate OverrideFits(o: Option<string>)
  {
    o.Some? ==> |o.value| <= NameWidth && NulFree(o.value)
  }

  predicate AchievementFits(a: Achievement)
  {
    && |a.name| <= NameWidth && NulFree(a.name)
    && OverrideFits(a.nameRu)
    && OverrideFits(a.nameEn)
    && IntegerMin <= a.points <= IntegerMax
    && NulFree(a.description)
    && TextFits(a.descriptionRu)
    && TextFits(a.descriptionEn)
  }

  /** Every award row references a stored user and a stored achievement. */
  predicate ForeignKeysHold(s: Store)
  {
    forall k :: 0 <= k < |s.awards| ==>
      HasUser(s, s.awards[k].userId) && HasAchievement(s, s.awards[k].achievementId)
  }

  /** What the database itself guarantees of any reachable state. */
  predicate Valid(s: Store)
  {
    && Distinct(UserIds(s.users))
    && Distinct(AchievementIds(s.achievements))
    && Distinct(AwardIds(s.awards))
    && UsernamesUnique(s.users)
    && (forall u :: u in s.users ==> UserFits(u))
    && (forall a :: a in s.achievements ==> AchievementFits(a))
    && ForeignKeysHold(s)
  }

  /** At most one award row per (user, achievement) pair. The schema has no
      constraint for this; only the award operation keeps it. */
  predicate OneRowPerPair(awards: seq<UserAchievement>)
  {
    forall i, j :: 0 <= i < j < |awards| ==>
      awards[i].userId != awards[j].userId || awards[i].achievementId != awards[j].achievementId
  }

  /** Every stored achievement is worth a positive number of points, which
      holds when achievements are created through the request layer. */
  predicate PositivePoints(s: Store)
  {
    forall a :: a in s.achievements ==> a.points > 0
  }

  /** The storage layer accepts a second row for an already awarded pair:
      nothing in `Valid` forbids it. */
  lemma {:induction false} DuplicatePairAllowedByStorage()
    ensures exists s :: Valid(s) && !OneRowPerPair(s.awards)
  {
    var u := User(1, "u", "ru", 0);
    var a := Achievement(1, "a", None, None, 10, "d", None, None, 0);
    var s := Store([u], [a], [UserAchievement(1, 1, 1, 0), UserAchievement(2, 1, 1, 0)]);
    assert s.users[0] == u;
    assert s.achievements[0] == a;
    assert HasUser(s, 1);
    assert HasAchievement(s, 1);
    assert s.awards[0].userId == s.awards[1].userId;
    assert Valid(s);
  }
}

=== FILE: seqs.dfy ===
/** Searches over sequences shared by the lookups and the statistics. */
module Seqs {
  import opened Wrappers

  /** Index of the first element satisfying `p`, the way `.first()` picks the
      first row a filtered query yields. */
  function FirstIndex<T>(xs: seq<T>, p: T -> bool): (r: Option<nat>)
    ensures r.Some? ==> r.value < |xs| && p(xs[r.value])
    ensures r.Some? ==> forall j :: 0 <= j < r.value ==> !p(xs[j])
    ensures r.None? <==> forall j :: 0 <= j < |xs| ==> !p(xs[j])
  {
    if |xs| == 0 then None
    else if p(xs[0]) then Some(0)
    else
      match FirstIndex(xs[1..], p)
      case Some(i) => Some(i + 1)
      case None => None
  }

  /** Index of the first largest element, as Python's `max` returns it. */
  function ArgMax(xs: seq<int>): (k: nat)
    requires |xs| > 0
    ensures k < |xs|
    ensures forall j :: 0 <= j < |xs| ==> xs[j] <= xs[k]
    ensures forall j :: 0 <= j < k ==> xs[j] < xs[k]
  {
    if |xs| == 1 then 0
    else
      var k := ArgMax(xs[1..]);
      if xs[0] >= xs[k + 1] then 0 else k + 1
  }

  /** Index of the first smallest element, as Python's `min` returns it. */
  function ArgMin(xs: seq<int>): (k: nat)
    requires |xs| > 0
    ensures k < |xs|
    ensures forall j :: 0 <= j < |xs| ==> xs[k] <= xs[j]
    ensures forall j :: 0 <= j < k ==> xs[k] < xs[j]
  {
    if |xs| == 1 then 0
    else
      var k := ArgMin(xs[1..]);
      if xs[0] <= xs[k + 1] then 0 else k + 1
  }

  /** The elements satisfying `p`, in their original order, each as often as
      it occurs in `xs`. */
  function Filter<T(!new)>(xs: seq<T>, p: T -> bool): (r: seq<T>)
    ensures |r| <= |xs|
    ensures forall x :: x in r <==> x in xs && p(x)
    ensures forall x :: multiset(r)[x] == if p(x) then multiset(xs)[x] else 0
  {
    if |xs| == 0 then []
    else
      assert xs == [xs[0]] + xs[1..];
      if p(xs[0]) then [xs[0]] + Filter(xs[1..], p) else Filter(xs[1..], p)
  }
}

=== FILE: stats.dfy ===
/** The statistics engine: aggregations recomputed from the store on every
    call. Ties among equal extremes are broken by first occurrence in stored
    order; the contracts promise only that the extreme is attained. */
module Stats {
  import opened Wrappers
  import opened Schema
  import opened ApiModels
  import Crud
  import Seqs

  // ---------------------------------------------------------------------
  // Per-user aggregates

  /** Number of award rows of one user (`count(user_achievements.id)`). */
  function AwardCount(rows: seq<UserAchievement>, userId: int): (n: nat)
    ensures n <= |rows|
    ensures n > 0 <==> exists i :: 0 <= i < |rows| && rows[i].userId == userId
  {
    if |rows| == 0 then 0
    else (if rows[0].userId == userId then 1 else 0) + AwardCount(rows[1..], userId)
  }

  /** What one award row adds to its user's sum: the joined achievement's
      points, or nothing (a NULL the sum skips) when no achievement has
      that id. */
  function RowPoints(s: Store, row: UserAchievement): (p: int)
    ensures HasAchievement(s, row.achievementId) ==>
      exists a :: a in s.achievements && a.id == row.achievementId && a.points == p
    ensures !HasAchievement(s, row.achievementId) ==> p == 0
    ensures PositivePoints(s) ==> p >= 0
  {
    match Crud.GetAchievement(s, row.achievementId)
    case Some(a) => a.points
    case None => 0
  }

  /** Sum of `RowPoints` over the rows of one user. */
  function PointsSum(s: Store, rows: seq<UserAchievement>, userId: int): (t: int)
    ensures PositivePoints(s) ==> t >= 0
  {
    if |rows| == 0 then 0
    else (if rows[0].userId == userId then RowPoints(s, rows[0]) else 0) + PointsSum(s, rows[1..], userId)
  }

  /** `coalesce(sum(achievements.points), 0)` over the user's outer join. */
  function Total(s: Store, userId: int): (t: int)
    ensures PositivePoints(s) ==> t >= 0
  {
    PointsSum(s, s.awards, userId)
  }

  /** Appending a row adds its points to its own user's sum only. */
  lemma {:induction false} PointsSumAppend(s: Store, rows: seq<UserAchievement>, row: UserAchievement, userId: int)
    ensures PointsSum(s, rows + [row], userId)
         == PointsSum(s, rows, userId) + (if row.userId == userId then RowPoints(s, row) else 0)
  {
    if |rows| > 0 {
      assert (rows + [row])[1..] == rows[1..] + [row];
      PointsSumAppend(s, rows[1..], row, userId);
    }
  }

  /** A user without award rows totals 0. */
  lemma {:induction false} NoAwardsZeroTotal(s: Store, rows: seq<UserAchievement>, userId: int)
    ensures AwardCount(rows, userId) == 0 ==> PointsSum(s, rows, userId) == 0
  {
    if |rows| > 0 {
      NoAwardsZeroTotal(s, rows[1..], userId);
    }
  }

  /** With positive points and every row's achievement stored, a user's sum
      is positive exactly when the user has a row. */
  lemma {:induction false} PositiveSumIffAwarded(s: Store, rows: seq<UserAchievement>, userId: int)
    requires PositivePoints(s)
    requires forall k :: 0 <= k < |rows| ==> HasAchievement(s, rows[k].achievementId)
    ensures PointsSum(s, rows, userId) >= 0
    ensures PointsSum(s, rows, userId) > 0 <==> AwardCount(rows, userId) > 0
  {
    if |rows| > 0 {
      PositiveSumIffAwarded(s, rows[1..], userId);
      var a := Crud.GetAchievement(s, rows[0].achievementId);
      assert a.Some? && a.value in s.achievements;
    }
  }

  /** Over a reachable store, a user is eligible for the difference
      statistics exactly when they were awarded something. */
  lemma TotalPositiveIffAwarded(s: Store, userId: int)
    requires Valid(s) && PositivePoints(s)
    ensures Total(s, userId) >= 0
    ensures Total(s, userId) > 0 <==> AwardCount(s.awards, userId) > 0
  {
    PositiveSumIffAwarded(s, s.awards, userId);
  }

  /** A newly awarded pair raises the recipient's total by the
      achievement's points and leaves every other total unchanged. */
  lemma AwardAddsPointsToRecipientOnly(s: Store, userId: int, achievementId: int, now: int, other: int)
    requires !Crud.Awarded(s.awards, userId, achievementId)
    requires Crud.AwardAchievement(s, userId, achievementId, now).Success?
    ensures var s' := Crud.AwardAchievement(s, userId, achievementId, now).value.0;
      && Total(s', userId) == Total(s, userId) + Crud.GetAchievement(s, achievementId).value.points
      && (other != userId ==> Total(s', other) == Total(s, other))
  {
    var r := Crud.AwardAchievement(s, userId, achievementId, now).value;
    var s', row := r.0, r.1;
    assert s'.achievements == s.achievements;
    assert RowPoints(s', row) == RowPoints(s, row);
    PointsSumAppend(s', s.awards, row, userId);
    PointsSumAppend(s', s.awards, row, other);
    PointsSumEquivAchievements(s, s', s.awards, userId);
    PointsSumEquivAchievements(s, s', s.awards, other);
  }

  /** The sum reads only the achievements table. */
  lemma {:induction false} PointsSumEquivAchievements(s: Store, s': Store, rows: seq<UserAchievement>, userId: int)
    requires s.achievements == s'.achievements
    ensures PointsSum(s, rows, userId) == PointsSum(s', rows, userId)
  {
    if |rows| > 0 {
      PointsSumEquivAchievements(s, s', rows[1..], userId);
      assert RowPoints(s, rows[0]) == RowPoints(s', rows[0]);
    }
  }

  // ---------------------------------------------------------------------
  // Leaders by count and by points

  /** The user with the most award rows. The inner join leaves out users
      without rows, so there is no answer when no user has a row. */
  function UserWithMaxAchievements(s: Store): (r: Option<StatsResponse>)
    ensures r.None? <==> forall u :: u in s.users ==> AwardCount(s.awards, u.id) == 0
    ensures r.Some? ==> exists u :: u in s.users && u.id == r.value.userId && u.username == r.value.username
    ensures r.Some? ==> r.value.total == AwardCount(s.awards, r.value.userId) && r.value.total > 0
    ensures r.Some? ==> forall u :: u in s.users ==> AwardCount(s.awards, u.id) <= r.value.total
  {
    if |s.users| == 0 then None
    else
      var counts := seq(|s.users|, i requires 0 <= i < |s.users| => AwardCount(s.awards, s.users[i].id) as int);
      var k := Seqs.ArgMax(counts);
      assert forall u :: u in s.users ==> AwardCount(s.awards, u.id) <= counts[k] by {
        forall u | u in s.users ensures AwardCount(s.awards, u.id) <= counts[k] {
          var i :| 0 <= i < |s.users| && s.users[i] == u;
          assert counts[i] <= counts[k];
        }
      }
      if counts[k] == 0 then None
      else Some(StatsResponse(s.users[k].id, s.users[k].username, counts[k]))
  }

  /** Over a store whose rows all reference stored users, there is no
      leader by count exactly when there are no award rows at all. */
  lemma MaxAchievementsNoneIffNoAwards(s: Store)
    requires forall k :: 0 <= k < |s.awards| ==> HasUser(s, s.awards[k].userId)
    ensures UserWithMaxAchievements(s).None? <==> |s.awards| == 0
  {
    if |s.awards| > 0 {
      assert HasUser(s, s.awards[0].userId);
      var u :| u in s.users && u.id == s.awards[0].userId;
      assert AwardCount(s.awards, u.id) > 0;
    }
  }

  /** The user with the largest total, users without awards counting 0.
      There is no answer when there are no users or when the largest total
      is 0. */
  function UserWithMaxPoints(s: Store): (r: Option<StatsResponse>)
    ensures r.None? <==>
      || |s.users| == 0
      || ((forall u :: u in s.users ==> Total(s, u.id) <= 0) && exists u :: u in s.users && Total(s, u.id) == 0)
    ensures r.Some? ==> exists u :: u in s.users && u.id == r.value.userId && u.username == r.value.username
    ensures r.Some? ==> r.value.total == Total(s, r.value.userId) && r.value.total != 0
    ensures r.Some? ==> forall u :: u in s.users ==> Total(s, u.id) <= r.value.total
  {
    if |s.users| == 0 then None
    else
      var totals := seq(|s.users|, i requires 0 <= i < |s.users| => Total(s, s.users[i].id));
      var k := Seqs.ArgMax(totals);
      assert forall u :: u in s.users ==> Total(s, u.id) <= totals[k] by {
        forall u | u in s.users ensures Total(s, u.id) <= totals[k] {
          var i :| 0 <= i < |s.users| && s.users[i] == u;
          assert totals[i] <= totals[k];
        }
      }
      assert s.users[k] in s.users;
      if totals[k] == 0 then None
      else Some(StatsResponse(s.users[k].id, s.users[k].username, totals[k]))
  }

  /** Over a reachable store with positive points, there is no leader by
      points exactly when nobody was awarded anything. */
  lemma MaxPointsNoneIffNoAwards(s: Store)
    requires Valid(s) && PositivePoints(s)
    ensures UserWithMaxPoints(s).None? <==> |s.awards| == 0
  {
    if |s.awards| > 0 {
      assert HasUser(s, s.awards[0].userId);
      var u :| u in s.users && u.id == s.awards[0].userId;
      assert AwardCount(s.awards, u.id) > 0;
      TotalPositiveIffAwarded(s, u.id);
    } else if |s.users| > 0 {
      var u := s.users[0];
      NoAwardsZeroTotal(s, s.awards, u.id);
      assert u in s.users && Total(s, u.id) == 0;
      forall v | v in s.users ensures Total(s, v.id) <= 0 {
        NoAwardsZeroTotal(s, s.awards, v.id);
      }
    }
  }

  // ---------------------------------------------------------------------
  // Point differences

  /** A row of the grouped points query. */
  datatype PointsRow = PointsRow(userId: int, username: string, points: int)

  function RowOf(s: Store, u: User): PointsRow
  {
    PointsRow(u.id, u.username, Total(s, u.id))
  }

  /** The `HAVING total > 0` rows for `users`, in order. */
  function EligibleFrom(s: Store, users: seq<User>): (r: seq<PointsRow>)
    ensures |r| <= |users|
    ensures forall row :: row in r ==> row.points > 0 && row.points == Total(s, row.userId)
    ensures forall row :: row in r <==> exists u :: u in users && Total(s, u.id) > 0 && row == RowOf(s, u)
  {
    if |users| == 0 then []
    else
      var rest := EligibleFrom(s, users[1..]);
      assert forall u :: u in users <==> u == users[0] || u in users[1..];
      if Total(s, users[0].id) > 0 then [RowOf(s, users[0])] + rest else rest
  }

  /** Every eligible row belongs to one of the given users. */
  lemma {:induction false} EligibleIdsAmong(s: Store, users: seq<User>)
    ensures forall row :: row in EligibleFrom(s, users) ==> row.userId in UserIds(users)
  {
    if |users| > 0 {
      EligibleIdsAmong(s, users[1..]);
      assert UserIds(users) == [users[0].id] + UserIds(users[1..]);
      var rest := EligibleFrom(s, users[1..]);
      if Total(s, users[0].id) > 0 {
        assert EligibleFrom(s, users) == [RowOf(s, users[0])] + rest;
      } else {
        assert EligibleFrom(s, users) == rest;
      }
    }
  }

  /** Users with distinct ids give eligible rows with distinct ids. */
  lemma {:induction false} EligibleIdsDistinct(s: Store, users: seq<User>)
    requires Distinct(UserIds(users))
    ensures Distinct(PointsUserIds(EligibleFrom(s, users)))
  {
    if |users| > 0 {
      var ids, tail := UserIds(users), UserIds(users[1..]);
      assert tail == ids[1..];
      EligibleIdsDistinct(s, users[1..]);
      EligibleIdsAmong(s, users[1..]);
      var rest := EligibleFrom(s, users[1..]);
      forall k | 0 <= k < |rest|
        ensures rest[k].userId != users[0].id
      {
        assert rest[k] in rest;
        var m :| 0 <= m < |tail| && tail[m] == rest[k].userId;
        assert ids[0] != ids[m + 1];
      }
      if Total(s, users[0].id) > 0 {
        DistinctCons(RowOf(s, users[0]), rest);
      }
    }
  }

  /** A row whose user differs from every later row's keeps ids distinct. */
  lemma DistinctCons(row: PointsRow, rest: seq<PointsRow>)
    requires Distinct(PointsUserIds(rest))
    requires forall k :: 0 <= k < |rest| ==> rest[k].userId != row.userId
    ensures Distinct(PointsUserIds([row] + rest))
  {
    var r := [row] + rest;
    forall i, j | 0 <= i < j < |r|
      ensures PointsUserIds(r)[i] != PointsUserIds(r)[j]
    {
      assert r[j] == rest[j - 1];
      if i > 0 {
        assert r[i] == rest[i - 1];
        assert PointsUserIds(rest)[i - 1] != PointsUserIds(rest)[j - 1];
      }
    }
  }

  function PointsUserIds(rows: seq<PointsRow>): (ids: seq<int>)
    ensures |ids| == |rows|
    ensures forall k :: 0 <= k < |rows| ==> ids[k] == rows[k].userId
  {
    seq(|rows|, k requires 0 <= k < |rows| => rows[k].userId)
  }

  /** Users whose total is positive; only they take part in the difference
      statistics. */
  function Eligible(s: Store): seq<PointsRow>
  {
    EligibleFrom(s, s.users)
  }

  function PointsOf(rows: seq<PointsRow>): (p: seq<int>)
    ensures |p| == |rows|
    ensures forall k :: 0 <= k < |rows| ==> p[k] == rows[k].points
  {
    seq(|rows|, k requires 0 <= k < |rows| => rows[k].points)
  }

  /** The eligible users with the smallest and the largest totals, and the
      gap between them; no answer with fewer than two eligible users. */
  function UsersWithMaxDifference(s: Store): (r: Option<UserDifference>)
    ensures r.None? <==> |Eligible(s)| < 2
    ensures r.Some? ==>
      && PointsRow(r.value.user1Id, r.value.user1Name, Total(s, r.value.user1Id)) in Eligible(s)
      && PointsRow(r.value.user2Id, r.value.user2Name, Total(s, r.value.user2Id)) in Eligible(s)
    ensures r.Some? ==> r.value.difference == Total(s, r.value.user2Id) - Total(s, r.value.user1Id)
    ensures r.Some? ==> forall row :: row in Eligible(s) ==>
      Total(s, r.value.user1Id) <= row.points <= Total(s, r.value.user2Id)
  {
    var e := Eligible(s);
    if |e| < 2 then None
    else
      var lo := Seqs.ArgMin(PointsOf(e));
      var hi := Seqs.ArgMax(PointsOf(e));
      ExtremesOfRows(e, lo, hi);
      assert e[lo] in e && e[hi] in e;
      Some(UserDifference(e[lo].userId, e[lo].username, e[hi].userId, e[hi].username, e[hi].points - e[lo].points))
  }

  /** Positions holding the smallest and largest points bound every row. */
  lemma ExtremesOfRows(e: seq<PointsRow>, lo: nat, hi: nat)
    requires lo < |e| && hi < |e|
    requires forall j :: 0 <= j < |e| ==> PointsOf(e)[lo] <= PointsOf(e)[j] <= PointsOf(e)[hi]
    ensures forall row :: row in e ==> e[lo].points <= row.points <= e[hi].points
  {
    forall row | row in e
      ensures e[lo].points <= row.points <= e[hi].points
    {
      var i :| 0 <= i < |e| && e[i] == row;
      assert PointsOf(e)[lo] <= PointsOf(e)[i] <= PointsOf(e)[hi];
    }
  }

  function Distance(x: int, y: int): nat
  {
    if x <= y then y - x else x - y
  }

  /** The largest difference is non-negative and bounds the distance
      between any two eligible users. */
  lemma MaxDifferenceBoundsEveryPair(s: Store)
    requires UsersWithMaxDifference(s).Some?
    ensures var d := UsersWithMaxDifference(s).value.difference;
      d >= 0 && forall a, b :: a in Eligible(s) && b in Eligible(s) ==> Distance(a.points, b.points) <= d
  {
  }

  /** When every eligible user has the same total, both sides of the
      largest difference are the first eligible user and the difference is
      0: the first minimum and the first maximum coincide. */
  lemma MaxDifferenceEqualTotals(s: Store)
    requires |Eligible(s)| >= 2
    requires forall i :: 0 <= i < |Eligible(s)| ==> Eligible(s)[i].points == Eligible(s)[0].points
    ensures var r := UsersWithMaxDifference(s).value;
      && r.user1Id == r.user2Id == Eligible(s)[0].userId
      && r.difference == 0
  {
  }

  predicate SortedByPoints(rows: seq<PointsRow>)
  {
    forall i, j :: 0 <= i < j < |rows| ==> rows[i].points <= rows[j].points
  }

  /** Inserts `x` before the first row with at least its points. */
  function InsertByPoints(x: PointsRow, rows: seq<PointsRow>): (r: seq<PointsRow>)
    requires SortedByPoints(rows)
    ensures SortedByPoints(r)
    ensures multiset(r) == multiset(rows) + multiset{x}
    ensures forall k :: 0 <= k < |r| ==> r[k] == x || r[k] in rows
  {
    if |rows| == 0 then [x]
    else if x.points <= rows[0].points then
      SortedCons(x, rows);
      [x] + rows
    else
      SortedTail(rows);
      var rest := InsertByPoints(x, rows[1..]);
      InsertAfterHead(x, rows, rest);
      [rows[0]] + rest
  }

  /** The recursive step of the insertion: `x` went into the tail, so the
      head stays in front. */
  lemma InsertAfterHead(x: PointsRow, rows: seq<PointsRow>, rest: seq<PointsRow>)
    requires SortedByPoints(rows) && |rows| > 0 && rows[0].points < x.points
    requires SortedByPoints(rest)
    requires multiset(rest) == multiset(rows[1..]) + multiset{x}
    requires forall k :: 0 <= k < |rest| ==> rest[k] == x || rest[k] in rows[1..]
    ensures SortedByPoints([rows[0]] + rest)
    ensures multiset([rows[0]] + rest) == multiset(rows) + multiset{x}
    ensures forall k :: 0 <= k < |rest| + 1 ==> ([rows[0]] + rest)[k] == x || ([rows[0]] + rest)[k] in rows
  {
    assert rows == [rows[0]] + rows[1..];
    forall k | 0 <= k < |rest|
      ensures rows[0].points <= rest[k].points
    {
      if rest[k] != x {
        var i :| 0 <= i < |rows[1..]| && rows[1..][i] == rest[k];
        assert rows[i + 1] == rest[k];
      }
    }
    SortedCons(rows[0], rest);
  }

  lemma SortedTail(rows: seq<PointsRow>)
    requires SortedByPoints(rows) && |rows| > 0
    ensures SortedByPoints(rows[1..])
  {
  }

  lemma SortedCons(y: PointsRow, rest: seq<PointsRow>)
    requires SortedByPoints(rest)
    requires forall k :: 0 <= k < |rest| ==> y.points <= rest[k].points
    ensures SortedByPoints([y] + rest)
  {
  }

  /** Python's stable `sort(key=points)`, as an insertion sort. */
  function SortByPoints(rows: seq<PointsRow>): (r: seq<PointsRow>)
    ensures SortedByPoints(r)
    ensures multiset(r) == multiset(rows)
  {
    if |rows| == 0 then []
    else
      assert rows == [rows[0]] + rows[1..];
      InsertByPoints(rows[0], SortByPoints(rows[1..]))
  }

  /** The gap between the values at `index` and `index + 1`. */
  datatype Gap = Gap(index: nat, size: int)

  /** The scan of adjacent gaps: the first pair whose gap is strictly
      smaller than every earlier one, starting from an infinite bound. No
      pair exists in fewer than two values. */
  method MinAdjacentGap(xs: seq<int>) returns (r: Option<Gap>)
    ensures r.None? <==> |xs| < 2
    ensures r.Some? ==> r.value.index + 1 < |xs| && r.value.size == xs[r.value.index + 1] - xs[r.value.index]
    ensures r.Some? ==> forall j :: 0 <= j < |xs| - 1 ==> r.value.size <= xs[j + 1] - xs[j]
    ensures r.Some? ==> forall j :: 0 <= j < r.value.index ==> r.value.size < xs[j + 1] - xs[j]
  {
    var best: Option<int> := None;
    var k: nat := 0;
    var i := 0;
    while i < |xs| - 1
      invariant 0 <= i <= |xs|
      invariant |xs| >= 1 ==> i <= |xs| - 1
      invariant best.None? <==> i == 0
      invariant best.Some? ==> k < i && best.value == xs[k + 1] - xs[k]
      invariant best.Some? ==> forall j :: 0 <= j < i ==> best.value <= xs[j + 1] - xs[j]
      invariant best.Some? ==> forall j :: 0 <= j < k ==> best.value < xs[j + 1] - xs[j]
    {
      var diff := xs[i + 1] - xs[i];
      if best.None? || diff < best.value {
        best := Some(diff);
        k := i;
      }
      i := i + 1;
    }
    if best.Some? {
      r := Some(Gap(k, best.value));
    } else {
      r := None;
    }
  }

  /** In ascending values, a bound on every adjacent gap bounds the
      distance between any two positions. */
  lemma {:induction false} AdjacentBoundIsGlobal(xs: seq<int>, d: int)
    requires forall i, j :: 0 <= i < j < |xs| ==> xs[i] <= xs[j]
    requires forall j :: 0 <= j < |xs| - 1 ==> d <= xs[j + 1] - xs[j]
    ensures forall i, j :: 0 <= i < |xs| && 0 <= j < |xs| && i != j ==> d <= Distance(xs[i], xs[j])
  {
    forall i, j | 0 <= i < |xs| && 0 <= j < |xs| && i != j
      ensures d <= Distance(xs[i], xs[j])
    {
      if i < j {
        assert xs[i + 1] <= xs[j];
      } else {
        assert xs[j + 1] <= xs[i];
      }
    }
  }

  /** A bound on the adjacent gaps of the sorted rows bounds the distance
      between any two distinct rows. */
  lemma MinGapBoundsEveryPair(rows: seq<PointsRow>, sorted: seq<PointsRow>, d: int)
    requires SortedByPoints(sorted) && multiset(sorted) == multiset(rows)
    requires forall j :: 0 <= j < |sorted| - 1 ==> d <= sorted[j + 1].points - sorted[j].points
    ensures forall a, b :: a in rows && b in rows && a != b ==> d <= Distance(a.points, b.points)
  {
    var p := PointsOf(sorted);
    AdjacentBoundIsGlobal(p, d);
    forall a, b | a in rows && b in rows && a != b
      ensures d <= Distance(a.points, b.points)
    {
      assert a in multiset(sorted) && b in multiset(sorted);
      var i :| 0 <= i < |sorted| && sorted[i] == a;
      var j :| 0 <= j < |sorted| && sorted[j] == b;
      assert p[i] == a.points && p[j] == b.points;
    }
  }

  /** In a permutation of rows with distinct user ids, two positions hold
      two different users. */
  lemma SortedPositionsDistinctUsers(rows: seq<PointsRow>, sorted: seq<PointsRow>, i: nat, j: nat)
    requires multiset(sorted) == multiset(rows) && Distinct(PointsUserIds(rows))
    requires i < j < |sorted|
    ensures sorted[i].userId != sorted[j].userId
  {
    if sorted[i].userId == sorted[j].userId {
      assert sorted[i] in multiset(rows) && sorted[j] in multiset(rows);
      var a :| 0 <= a < |rows| && rows[a] == sorted[i];
      var b :| 0 <= b < |rows| && rows[b] == sorted[j];
      assert a == b;
      CountAtLeastTwo(sorted, i, j);
      CountAtMostOne(rows, a);
      assert false;
    }
  }

  lemma CountAtLeastTwo<T>(xs: seq<T>, i: nat, j: nat)
    requires i < j < |xs| && xs[i] == xs[j]
    ensures multiset(xs)[xs[i]] >= 2
  {
    assert xs == xs[..j] + xs[j..];
    assert xs[i] in xs[..j];
    assert xs[j] == xs[j..][0];
  }

  lemma {:induction false} CountAtMostOne(rows: seq<PointsRow>, a: nat)
    requires Distinct(PointsUserIds(rows)) && a < |rows|
    ensures multiset(rows)[rows[a]] == 1
  {
    assert rows == rows[..a] + [rows[a]] + rows[a + 1..];
    assert rows[a] !in rows[..a] by {
      forall k | 0 <= k < a ensures rows[k] != rows[a] {
        assert PointsUserIds(rows)[k] != PointsUserIds(rows)[a];
      }
    }
    assert rows[a] !in rows[a + 1..] by {
      forall k | a < k < |rows| ensures rows[k] != rows[a] {
        assert PointsUserIds(rows)[a] != PointsUserIds(rows)[k];
      }
    }
  }

  /** `d` names the adjacent pair at some position `k` of `sorted`, its
      difference is their gap, no adjacent gap is smaller, and every earlier
      gap is strictly larger. */
  predicate FirstSmallestAdjacentGap(sorted: seq<PointsRow>, d: UserDifference)
  {
    && (exists k :: 0 <= k < |sorted| - 1 && IsPairAt(sorted, k, d) && EarlierGapsLarger(sorted, k, d.difference))
    && NoSmallerAdjacentGap(sorted, d.difference)
  }

  predicate NoSmallerAdjacentGap(sorted: seq<PointsRow>, size: int)
  {
    forall j :: 0 <= j < |sorted| - 1 ==> size <= sorted[j + 1].points - sorted[j].points
  }

  predicate IsPairAt(sorted: seq<PointsRow>, k: nat, d: UserDifference)
    requires k + 1 < |sorted|
  {
    && sorted[k].userId == d.user1Id && sorted[k].username == d.user1Name
    && sorted[k + 1].userId == d.user2Id && sorted[k + 1].username == d.user2Name
    && d.difference == sorted[k + 1].points - sorted[k].points
  }

  predicate EarlierGapsLarger(sorted: seq<PointsRow>, k: nat, size: int)
    requires k < |sorted|
  {
    forall j :: 0 <= j < k ==> size < sorted[j + 1].points - sorted[j].points
  }

  /** The reply naming `lo` and `hi` and the gap from `lo` up to `hi`. */
  function Difference(lo: PointsRow, hi: PointsRow): UserDifference
  {
    UserDifference(lo.userId, lo.username, hi.userId, hi.username, hi.points - lo.points)
  }

  /** The scan over any grouped rows: sort by points, then take the first
      adjacent pair with the smallest gap. */
  method ClosestAdjacentPair(rows: seq<PointsRow>) returns (r: Option<(PointsRow, PointsRow)>)
    ensures r.None? <==> |rows| < 2
    ensures r.Some? ==> FirstSmallestAdjacentGap(SortByPoints(rows), Difference(r.value.0, r.value.1))
    ensures r.Some? ==> r.value.0 in rows && r.value.1 in rows && r.value.0.points <= r.value.1.points
    ensures r.Some? && Distinct(PointsUserIds(rows)) ==> r.value.0.userId != r.value.1.userId
    ensures r.Some? ==> forall a, b :: a in rows && b in rows && a != b ==>
      r.value.1.points - r.value.0.points <= Distance(a.points, b.points)
  {
    if |rows| < 2 {
      return None;
    }
    var sorted := SortByPoints(rows);
    assert |sorted| == |multiset(sorted)| == |multiset(rows)| == |rows|;
    var m := MinAdjacentGap(PointsOf(sorted));
    var k, d := m.value.index, m.value.size;
    r := Some((sorted[k], sorted[k + 1]));
    ScanPicksFirstSmallest(sorted, k, d, Difference(sorted[k], sorted[k + 1]));
    MinGapBoundsEveryPair(rows, sorted, d);
    PairFromRows(rows, sorted, k);
    if Distinct(PointsUserIds(rows)) {
      SortedPositionsDistinctUsers(rows, sorted, k, k + 1);
    }
  }

  /** The eligible users whose totals are closest: after sorting by points,
      the first adjacent pair with the smallest gap. No answer with fewer
      than two eligible users. */
  method UsersWithMinDifference(s: Store) returns (r: Option<UserDifference>)
    ensures r.None? <==> |Eligible(s)| < 2
    ensures r.Some? ==> FirstSmallestAdjacentGap(SortByPoints(Eligible(s)), r.value)
    ensures r.Some? ==>
      && PointsRow(r.value.user1Id, r.value.user1Name, Total(s, r.value.user1Id)) in Eligible(s)
      && PointsRow(r.value.user2Id, r.value.user2Name, Total(s, r.value.user2Id)) in Eligible(s)
    ensures r.Some? ==>
      0 <= r.value.difference == Total(s, r.value.user2Id) - Total(s, r.value.user1Id)
    ensures r.Some? && Distinct(UserIds(s.users)) ==> r.value.user1Id != r.value.user2Id
    ensures r.Some? ==> forall a, b :: a in Eligible(s) && b in Eligible(s) && a != b ==>
      r.value.difference <= Distance(a.points, b.points)
  {
    var e := Eligible(s);
    var p := ClosestAdjacentPair(e);
    if p.None? {
      return None;
    }
    var lo, hi := p.value.0, p.value.1;
    assert lo.points == Total(s, lo.userId) && hi.points == Total(s, hi.userId);
    r := Some(Difference(lo, hi));
    if Distinct(UserIds(s.users)) {
      EligibleIdsDistinct(s, s.users);
    }
  }

  /** The scan's position and gap, read back on the rows. */
  lemma ScanPicksFirstSmallest(sorted: seq<PointsRow>, k: nat, d: int, r: UserDifference)
    requires k + 1 < |sorted|
    requires r == Difference(sorted[k], sorted[k + 1])
    requires d == PointsOf(sorted)[k + 1] - PointsOf(sorted)[k]
    requires forall j :: 0 <= j < k ==> d < PointsOf(sorted)[j + 1] - PointsOf(sorted)[j]
    requires forall j :: 0 <= j < |sorted| - 1 ==> d <= PointsOf(sorted)[j + 1] - PointsOf(sorted)[j]
    ensures FirstSmallestAdjacentGap(sorted, r)
    ensures d == sorted[k + 1].points - sorted[k].points
    ensures NoSmallerAdjacentGap(sorted, d)
  {
    assert IsPairAt(sorted, k, r);
    assert EarlierGapsLarger(sorted, k, d);
    assert NoSmallerAdjacentGap(sorted, d);
  }

  /** Two adjacent positions of a permutation hold rows of the original. */
  lemma PairFromRows(rows: seq<PointsRow>, sorted: seq<PointsRow>, k: nat)
    requires multiset(sorted) == multiset(rows) && k + 1 < |sorted|
    ensures sorted[k] in rows && sorted[k + 1] in rows
  {
    assert sorted[k] in multiset(rows) && sorted[k + 1] in multiset(rows);
  }

  // ---------------------------------------------------------------------
  // Seven-day streak

  /** Days in the streak window. */
  const StreakLength: nat := 7

  /** First day of the window that ends on `today`. */
  function WindowStart(today: int): int
  {
    today - (StreakLength - 1)
  }

  /** The days `start`, `start + 1`, ..., `start + n - 1`. */
  function Days(start: int, n: nat): (d: set<int>)
    ensures |d| == n
    ensures forall x :: x in d <==> start <= x < start + n
    decreases n
  {
    if n == 0 then {}
    else
      var rest := Days(start + 1, n - 1);
      assert start !in rest;
      {start} + rest
  }

  predicate InWindow(row: UserAchievement, userId: int, start: int, end: int)
  {
    row.userId == userId && start <= row.awardedAt <= end
  }

  /** The distinct dates of the user's awards within `[start, end]`. */
  function AwardDates(rows: seq<UserAchievement>, userId: int, start: int, end: int): (d: set<int>)
    ensures forall x :: x in d ==> start <= x <= end
  {
    if |rows| == 0 then {}
    else if InWindow(rows[0], userId, start, end) then {rows[0].awardedAt} + AwardDates(rows[1..], userId, start, end)
    else AwardDates(rows[1..], userId, start, end)
  }

  /** The number of the user's award rows dated within `[start, end]`. */
  function WindowCount(rows: seq<UserAchievement>, userId: int, start: int, end: int): (n: nat)
    ensures n <= |rows|
    ensures n > 0 <==> exists i :: 0 <= i < |rows| && InWindow(rows[i], userId, start, end)
  {
    if |rows| == 0 then 0
    else (if InWindow(rows[0], userId, start, end) then 1 else 0) + WindowCount(rows[1..], userId, start, end)
  }

  /** The user has an award row dated `day`. */
  predicate HasAwardOn(rows: seq<UserAchievement>, userId: int, day: int)
  {
    exists i :: 0 <= i < |rows| && rows[i].userId == userId && rows[i].awardedAt == day
  }

  /** Every day of the window ending on `today` has an award of the user. */
  ghost predicate Streak(rows: seq<UserAchievement>, userId: int, today: int)
  {
    forall day :: WindowStart(today) <= day <= today ==> HasAwardOn(rows, userId, day)
  }

  /** The test as the code performs it: the window's days are among the
      user's distinct award dates. */
  predicate CoversWindow(rows: seq<UserAchievement>, userId: int, today: int)
  {
    Days(WindowStart(today), StreakLength) <= AwardDates(rows, userId, WindowStart(today), today)
  }

  /** A date in the window is an award date exactly when some row of the
      user carries it. */
  lemma {:induction false} AwardDatesExact(rows: seq<UserAchievement>, userId: int, start: int, end: int, day: int)
    requires start <= day <= end
    ensures day in AwardDates(rows, userId, start, end) <==> HasAwardOn(rows, userId, day)
  {
    if |rows| > 0 {
      AwardDatesExact(rows[1..], userId, start, end, day);
      if HasAwardOn(rows[1..], userId, day) {
        var i :| 0 <= i < |rows[1..]| && rows[1..][i].userId == userId && rows[1..][i].awardedAt == day;
        assert rows[i + 1] == rows[1..][i];
      }
      if HasAwardOn(rows, userId, day) {
        var i :| 0 <= i < |rows| && rows[i].userId == userId && rows[i].awardedAt == day;
        if i > 0 {
          assert rows[1..][i - 1] == rows[i];
        }
      }
    }
  }

  /** The subset test on distinct dates is exactly the seven-day streak. */
  lemma CoversWindowIffStreak(rows: seq<UserAchievement>, userId: int, today: int)
    ensures CoversWindow(rows, userId, today) <==> Streak(rows, userId, today)
  {
    var start := WindowStart(today);
    forall day | start <= day <= today
      ensures day in AwardDates(rows, userId, start, today) <==> HasAwardOn(rows, userId, day)
    {
      AwardDatesExact(rows, userId, start, today, day);
    }
  }

  /** There are at least as many rows in the window as distinct dates. */
  lemma {:induction false} DatesAtMostRows(rows: seq<UserAchievement>, userId: int, start: int, end: int)
    ensures |AwardDates(rows, userId, start, end)| <= WindowCount(rows, userId, start, end)
  {
    if |rows| > 0 {
      DatesAtMostRows(rows[1..], userId, start, end);
      var rest := AwardDates(rows[1..], userId, start, end);
      if InWindow(rows[0], userId, start, end) {
        var x := rows[0].awardedAt;
        if x in rest {
          assert {x} + rest == rest;
        } else {
          assert |{x} + rest| == |rest| + 1;
        }
      }
    }
  }

  /** A qualifying user has at least seven rows in the window. */
  lemma CoveredWindowCount(rows: seq<UserAchievement>, userId: int, today: int)
    requires CoversWindow(rows, userId, today)
    ensures WindowCount(rows, userId, WindowStart(today), today) >= StreakLength
  {
    var days := Days(WindowStart(today), StreakLength);
    var dates := AwardDates(rows, userId, WindowStart(today), today);
    SubsetCard(days, dates);
    DatesAtMostRows(rows, userId, WindowStart(today), today);
  }

  lemma SubsetCard(a: set<int>, b: set<int>)
    requires a <= b
    ensures |a| <= |b|
  {
    var c := b - a;
    assert a * c == {};
    assert a + c == b;
  }

  function EntryOf(s: Store, u: User, today: int): StreakEntry
  {
    StreakEntry(u.id, u.username, WindowStart(today), today, WindowCount(s.awards, u.id, WindowStart(today), today))
  }

  function StreakEntries(s: Store, users: seq<User>, today: int): (r: seq<StreakEntry>)
    ensures |r| <= |users|
    ensures forall e :: e in r <==> exists u :: u in users && Streak(s.awards, u.id, today) && e == EntryOf(s, u, today)
    ensures forall e :: e in r ==> e.achievementsCount >= StreakLength
  {
    if |users| == 0 then []
    else
      var rest := StreakEntries(s, users[1..], today);
      assert forall u :: u in users <==> u == users[0] || u in users[1..];
      CoversWindowIffStreak(s.awards, users[0].id, today);
      if CoversWindow(s.awards, users[0].id, today) then
        CoveredWindowCount(s.awards, users[0].id, today);
        [EntryOf(s, users[0], today)] + rest
      else rest
  }

  /** No user has two entries. */
  predicate OneEntryPerUser(r: seq<StreakEntry>)
  {
    forall i, j :: 0 <= i < j < |r| ==> r[i].userId != r[j].userId
  }

  /** Every entry belongs to one of the given users. */
  lemma {:induction false} StreakEntriesAmong(s: Store, users: seq<User>, today: int)
    ensures forall k :: 0 <= k < |StreakEntries(s, users, today)| ==>
      StreakEntries(s, users, today)[k].userId in UserIds(users)
  {
    if |users| > 0 {
      StreakEntriesAmong(s, users[1..], today);
      assert UserIds(users) == [users[0].id] + UserIds(users[1..]);
      var rest := StreakEntries(s, users[1..], today);
      if CoversWindow(s.awards, users[0].id, today) {
        assert StreakEntries(s, users, today) == [EntryOf(s, users[0], today)] + rest;
      } else {
        assert StreakEntries(s, users, today) == rest;
      }
    }
  }

  /** One pass over users with distinct ids lists each user at most once. */
  lemma {:induction false} StreakEntriesOnePerUser(s: Store, users: seq<User>, today: int)
    ensures Distinct(UserIds(users)) ==> OneEntryPerUser(StreakEntries(s, users, today))
  {
    if Distinct(UserIds(users)) && |users| > 0 {
      var ids, tail := UserIds(users), UserIds(users[1..]);
      assert tail == ids[1..];
      StreakEntriesOnePerUser(s, users[1..], today);
      StreakEntriesAmong(s, users[1..], today);
      assert users[0].id !in tail by {
        forall k | 0 <= k < |tail| ensures tail[k] != users[0].id {
          assert ids[0] != ids[k + 1];
        }
      }
      var rest := StreakEntries(s, users[1..], today);
      if CoversWindow(s.awards, users[0].id, today) {
        assert StreakEntries(s, users, today) == [EntryOf(s, users[0], today)] + rest;
        OneEntryCons(EntryOf(s, users[0], today), rest);
      } else {
        assert StreakEntries(s, users, today) == rest;
      }
    }
  }

  lemma OneEntryCons(e: StreakEntry, rest: seq<StreakEntry>)
    requires OneEntryPerUser(rest)
    requires forall k :: 0 <= k < |rest| ==> rest[k].userId != e.userId
    ensures OneEntryPerUser([e] + rest)
  {
    var r := [e] + rest;
    forall i, j | 0 <= i < j < |r|
      ensures r[i].userId != r[j].userId
    {
      assert r[j] == rest[j - 1];
      if i > 0 {
        assert r[i] == rest[i - 1];
      }
    }
  }

  /** Users with an award on each of the seven days ending on `today`, in
      stored order, each with the window and the number of award rows in
      it (every row counts, not every day). The users are listed in one
      pass, so there are no more entries than users, and none twice. */
  function SevenDayStreakUsers(s: Store, today: int): (r: seq<StreakEntry>)
    ensures |r| <= |s.users|
    ensures Distinct(UserIds(s.users)) ==> OneEntryPerUser(r)
    ensures forall e :: e in r <==>
      exists u :: u in s.users && Streak(s.awards, u.id, today) && e == EntryOf(s, u, today)
    ensures forall e :: e in r ==>
      e.streakStart == today - 6 && e.streakEnd == today && e.achievementsCount >= 7
    ensures forall e :: e in r ==>
      e.achievementsCount == WindowCount(s.awards, e.userId, e.streakStart, e.streakEnd)
  {
    StreakEntriesOnePerUser(s, s.users, today);
    StreakEntries(s, s.users, today)
  }

  /** With no award rows nobody has a streak. */
  lemma NoAwardsNoStreak(s: Store, today: int)
    requires |s.awards| == 0
    ensures SevenDayStreakUsers(s, today) == []
  {
    NoAwardsNoEntries(s, s.users, today);
  }

  lemma {:induction false} NoAwardsNoEntries(s: Store, users: seq<User>, today: int)
    requires |s.awards| == 0
    ensures StreakEntries(s, users, today) == []
  {
    if |users| > 0 {
      NoAwardsNoEntries(s, users[1..], today);
      assert WindowStart(today) in Days(WindowStart(today), StreakLength);
    }
  }
}

=== FILE: wrappers.dfy ===
/** Option and Result: the "none" value of a lookup and the error path of an operation. */
module Wrappers {

  datatype Option<+T> = None | Some(value: T) {

    /** The value of a `Some`, or `default` for `None`. */
    function GetOr(default: T): T {
      match this
      case Some(v) => v
      case None => default
    }
  }

  datatype Result<+R, +E> = Success(value: R) | Failure(error: E)
}
